=== FILE: README.md ===
# MashedPotato staleness and error-tracking core, in Dafny

MashedPotato watches a project for JavaScript and CSS sources and minifies
each one again when it changes. A `.mash` file at the project root lists
directory patterns, one per line and relative to the root. The tool compiles
these into anchored regular expressions and picks the monitored directories
of the project that match them. In each monitored directory it hands every
stale source file (a `.js` or `.css` file that is not hidden and not itself a
`.min` artifact) to an external minifier, which writes `name.min.js` or
`name.min.css`. Files that fail to minify go into an error ledger, with the
time of their latest failure. The ledger is mirrored to a `MASH_ERRORS` file
at the project root. A failing file is not retried until it is modified
again.

This project models that core as pure functions over strings, timestamps and
maps, with these modules:

- `Text`, `Paths`, `Sequences` and `Wrappers`: Python's `str.split`,
  `str.strip`, `str.replace`, POSIX `os.path.join` and `os.path.split`, a
  sequence filter, and `Option` (`dict.get`).
- `PathMatcher`: configuration text to patterns, and matching paths against
  them. The regular-expression engine is a parameter (`Matcher`).
- `SourceFiles`: `is_minifiable` and `get_minified_name`.
- `Staleness`: `needs_minifying` as a function of three timestamps.
- `ErrorLedger`: the ledger (`map<string, int>`) and `update_error_logs`.
  The disk is modelled as a map from file paths to written lines.
- `DirectoryPass`: `minify_and_log` and `minify_all_in_directory`. Inputs are
  the directory listing, modification times (`Mtimes`), a minifier oracle
  and a sequence of clock readings.
  - `Pass` is the pure fold.
  - `MinifyAllInDirectory` is the loop, writing the error log as it goes.
- `Scenarios`: the unit tests of the configuration loader and matcher, and
  the end-to-end life of a source file across passes.

Where the code and the rule its own documentation states differ, the model
follows the code:

- **Missing failure time.** A file with no recorded failure reads as failure
  time `-1`, not "absent". An artifact modification time of `0` counts as
  no artifact (Python truthiness). `Staleness.NeedsMinifying` proves that,
  for sources modified after the epoch, the code's rule is exactly the
  rule the docstring of `needs_minifying` states (mashed_potato.py:123-125):
  skip a file whose artifact is newer, or that failed and has not changed
  since. `Staleness.PreEpochQuirks` shows where they differ.
- **Failed attempts write the artifact.** The minifier command ends in a
  shell redirection (`> name.min.js`), so every attempt creates or truncates
  the redirect target, whether the minifier succeeds or not. The paths are
  put into the command unquoted, so that target is the artifact only when
  the path holds no whitespace or shell metacharacters; the model assumes
  such paths and stamps the artifact on every attempt. A failed file is therefore held back both by
  its ledger entry and by the fresh artifact.

## Model

| member | source | states |
|---|---|---|
| Text.Split | mashed_potato.py:48 | `split('\n')` yields at least one piece, no piece holds the separator, and joining the pieces with it gives back the text |
| Text.SplitJoin | mashed_potato.py:48 | splitting inverts joining: separator-free pieces joined with the separator split back into the same pieces |
| Text.StripSpec | mashed_potato.py:49 | `strip()` leaves a slice of the line with only whitespace around it, and the slice neither starts nor ends with whitespace |
| Text.StripUnpadded | mashed_potato.py:49 | a line with no whitespace at either end is unchanged by `strip()` |
| Text.ReplaceChar | mashed_potato.py:71 | replacing `\` by `/` keeps the length, changes exactly the `\` characters, and leaves none |
| Paths.PathJoin | mashed_potato.py:70 | `os.path.join`: an absolute part replaces the root; otherwise the result starts with the root, ends with the part, and has a `/` between them unless the root is empty or ends with `/` |
| Paths.BasenameSpec | mashed_potato.py:93 | the file name `os.path.split` returns is a `/`-free suffix of the path, preceded by `/` when shorter than the path |
| Paths.BasenameOfJoin | mashed_potato.py:93 | the file name of a directory joined with a listed name is that name |
| Paths.JoinInjective | mashed_potato.py:244 | distinct names listed in one directory join to distinct paths |
| PathMatcher.PathRegexp | mashed_potato.py:62-73 | the pattern is the joined path with `^` in front and `$` behind, two characters longer, and holds no `\` |
| PathMatcher.PathRegexpSpec | mashed_potato.py:70-73 | between the anchors, the pattern is the joined path character for character, with each `\` turned into `/` |
| PathMatcher.PathRegexpExample | mashed_potato.py:66-67 | the documented example: `/home/wilfred/gxbo` and `foo/{a,b}` give `^/home/wilfred/gxbo/foo/{a,b}$` |
| PathMatcher.CompileLines | mashed_potato.py:48-59 | loading lines numbered from `number`: each warning names a line that strips to a directive ending in `/`, in increasing line order; at most one output per line |
| PathMatcher.CompileLinesWarnings | mashed_potato.py:48-54 | conversely, the warnings are exactly the numbers of the lines that strip to a directive ending in `/`, in line order |
| PathMatcher.PathsFromConfiguration | mashed_potato.py:40-59 | lines are numbered from 1, and every warning names a line of the configuration that ends in `/` |
| PathMatcher.ConfigurationWarnings | mashed_potato.py:48-54 | a line number is warned about if and only if that line, stripped, is a directive ending in `/`; the warnings come in line order |
| PathMatcher.CompileLinesPatterns | mashed_potato.py:48-57 | the patterns are exactly those of the stripped lines that are not blank, not comments and do not end in `/`, in line order |
| PathMatcher.ConfigurationPatterns | mashed_potato.py:40-59 | one pattern per pattern line of the configuration, in line order |
| PathMatcher.NoPatternsIffNoPatternLines | mashed_potato.py:40-59 | a configuration yields no pattern if and only if every line is blank, a comment or ends in `/` |
| PathMatcher.PatternCount | mashed_potato.py:40-59 | the number of patterns equals the number of pattern lines |
| PathMatcher.CommentLineIgnored | mashed_potato.py:49-51 | a line whose first non-blank character is `#` yields no pattern |
| PathMatcher.CommentsIgnored | tests.py:12-14 | the configuration `# foo \n# bar` yields no pattern |
| PathMatcher.BlankLinesIgnored | tests.py:16-18 | the configuration `# \n # ` yields no pattern |
| PathMatcher.CommentsOnly | tests.py:12-18 | any two comment lines joined by a newline yield no pattern |
| PathMatcher.RegexpNumber | tests.py:20-22 | the configuration `foo\nbar\nbaz` yields three patterns |
| PathMatcher.AnyMatches | mashed_potato.py:80 | `any(...)`: true if and only if some pattern matches |
| PathMatcher.PathMatchesRegexps | mashed_potato.py:76-80 | after `\` becomes `/` in the path, true if and only if some pattern matches it; never true for no patterns |
| PathMatcher.MonitoredDirectories | mashed_potato.py:219-225 | the monitored directories are exactly the walked directories that match, in walk order (any two of them occur in that order in the walk), none repeated |
| Sequences.FilterInOrder | mashed_potato.py:223-225 | a filter keeps the order of the elements it keeps: any two of its results occur in that order in the input |
| SourceFiles.IsMinifiable | mashed_potato.py:83-104 | a path is a source exactly when its file name is not hidden and the path ends in `.js` or `.css` but not in `.min.js` or `.min.css`; every source has an artifact name |
| SourceFiles.Extension | mashed_potato.py:115-118 | the suffix tried first is `.js`, then `.css`; empty exactly when the path ends in neither |
| SourceFiles.MinifiedName | mashed_potato.py:107-119 | defined exactly for paths ending in `.js` or `.css` (otherwise the code raises); the result keeps everything before the extension and ends in `.min` plus the extension |
| SourceFiles.MinifiedNameNotMinifiable | mashed_potato.py:101-102 | an artifact name is never a minification source |
| SourceFiles.MinifiedNameInjective | mashed_potato.py:107-119 | different sources have different artifacts |
| SourceFiles.MinifiableHasMinifiedName | mashed_potato.py:245 | every source has an artifact name, so `needs_minifying` never reaches the raise |
| SourceFiles.MinifiableInAnyDirectory | mashed_potato.py:93-104 | whether a listed file is a source depends on its name alone |
| SourceFiles.HiddenNotMinifiable | mashed_potato.py:95-96 | a hidden file is never a source, in any directory |
| SourceFiles.IsMinifiableExamples | mashed_potato.py:86-91 | the doctests: `foo.js` and `bar.css` are sources; `a.min.js`, `b.min.css` and `bar.gz` are not |
| SourceFiles.MinifiedNameExample | mashed_potato.py:111-112 | the doctest: `/a/b/.js/c/foo.js` becomes `/a/b/.js/c/foo.min.js`; the directory named `.js` is untouched |
| Staleness.NeedsMinifying | mashed_potato.py:122-145 | for sources modified after the epoch: stale if and only if neither the artifact nor the recorded failure is strictly newer than the source; a truthy newer artifact or a newer failure always means not stale |
| Staleness.UpToDateArtifactIsSkipped | mashed_potato.py:136-138 | an artifact newer than its source suppresses minification |
| Staleness.RetrySuppression | mashed_potato.py:140-143 | a failure newer than the source suppresses the retry; once the source is at least as new as the failure, it is retried unless a newer artifact exists |
| Staleness.EqualTimesAreStale | mashed_potato.py:137-143 | the comparisons are strict: an artifact or failure with the source's own timestamp does not suppress minification |
| Staleness.PreEpochQuirks | mashed_potato.py:137-142 | the sentinel `-1` and truthiness make the code differ from its documented rule for sources before the epoch and artifacts stamped `0` |
| ErrorLedger.ErrorLogPath | mashed_potato.py:207 | the error log is `MASH_ERRORS` inside the project directory |
| ErrorLedger.RecordOutcome | mashed_potato.py:199-204 | a failure records the path with the current time; a success removes it; no other entry changes |
| ErrorLedger.SuccessOfUnrecordedPathIsNoOp | mashed_potato.py:203-204 | a success for a path that was not failing leaves the ledger as it was |
| ErrorLedger.MirrorsLogsEveryPath | mashed_potato.py:209-212 | the paths named by a mirroring log are exactly the ledger's paths |
| ErrorLedger.MirrorsSingleton | mashed_potato.py:209-212 | with one failing path, the log is exactly that path and a newline |
| ErrorLedger.ListPaths | mashed_potato.py:211 | the ledger's keys, each once, in some order |
| ErrorLedger.LogLinesMirror | mashed_potato.py:210-212 | one `path\n` line per listed key mirrors the ledger |
| ErrorLedger.WriteErrorLog | mashed_potato.py:209-216 | the log written mirrors the ledger: absent when it is empty, otherwise one line per failing path |
| ErrorLedger.UpdateErrorLogs | mashed_potato.py:192-216 | the ledger records the outcome, the log afterwards mirrors the ledger, and no other file changes |
| DirectoryPass.ArtifactTime | mashed_potato.py:130-134 | the artifact's time is known exactly when the source has an artifact name and that file exists, and is then its modification time |
| DirectoryPass.Due | mashed_potato.py:245 | a due file has an artifact name; for an existing source modified after the epoch, it is due exactly when neither its artifact nor its recorded failure is newer than it |
| DirectoryPass.ListedPaths | mashed_potato.py:243-244 | each listed name is joined onto the directory, in listing order |
| DirectoryPass.ListedPathsDistinct | mashed_potato.py:242-244 | a directory listing joins to distinct paths |
| DirectoryPass.Stamped | mashed_potato.py:170-175 | every attempt writes its source's artifact |
| DirectoryPass.StampArtifact | mashed_potato.py:170-175 | after an attempt every file still exists, the source's artifact exists with the attempt's time, and every other file keeps its time |
| DirectoryPass.Visit | mashed_potato.py:244-246 | a file is attempted if and only if it is a source and is stale (a listed source must have a modification time); the attempt calls the minifier at the current time, records the outcome in the ledger and stamps the artifact; a skipped file changes nothing |
| DirectoryPass.Pass | mashed_potato.py:241-246 | a pass makes at most one attempt per listing entry and never removes a file; only the listed sources need a modification time |
| DirectoryPass.PassAttemptsEachFileOnce | mashed_potato.py:241-246 | over a listing that names no file twice, no file is attempted twice |
| DirectoryPass.PassLedgerFrame | mashed_potato.py:241-246 | ledger entries of files the pass did not attempt are unchanged |
| DirectoryPass.PassArtifactFrame | mashed_potato.py:241-246 | the pass changes no modification time other than its attempts' artifacts |
| DirectoryPass.VisitKeepsOthersDue | mashed_potato.py:241-246 | visiting one file does not change whether any other file is due |
| DirectoryPass.PassAttemptsStaleFiles | mashed_potato.py:241-246 | the files attempted are exactly the listed files that are sources and stale at the start of the pass, in listing order |
| DirectoryPass.StampedArtifact | mashed_potato.py:170-175 | every artifact the pass writes belongs to one of its attempts |
| DirectoryPass.StampedNotMinifiable | mashed_potato.py:241-246 | a pass never writes a source file |
| DirectoryPass.RestKeepsFirst | mashed_potato.py:241-246 | later files of the pass do not touch an earlier file's ledger entry, time or artifact |
| DirectoryPass.PassOutcomes | mashed_potato.py:228-246 | after the pass, every attempted file is out of the ledger if it succeeded, and recorded with its attempt's time if it failed |
| DirectoryPass.PassAttemptFacts | mashed_potato.py:228-246 | every attempt is the minifier's verdict on a listed file at that file's clock reading |
| DirectoryPass.VisitSettles | mashed_potato.py:122-145 | once a source has been attempted after its last edit, it is no longer due |
| DirectoryPass.PassSettles | mashed_potato.py:241-246 | after a pass whose clock is later than every source's edit, no listed file is due |
| DirectoryPass.SecondPassIsIdle | mashed_potato.py:241-246 | a second pass with no edits in between attempts nothing |
| DirectoryPass.MinifyAndLog | mashed_potato.py:228-238 | the minifier's verdict is recorded through `update_error_logs`, the artifact is written, and the log mirrors the ledger |
| DirectoryPass.VisitAndLog | mashed_potato.py:243-246 | one iteration of the loop is the file's visit; the disk changes only in the error log, and only when the file is attempted |
| DirectoryPass.MinifyAllInDirectory | mashed_potato.py:241-246 | the loop computes the pass; the error log mirrors the ledger if anything was attempted, and the disk is untouched otherwise |
| Scenarios.SimpleRegexp | tests.py:26-28 | configuration `foo` under `/` matches `/foo`, given that the engine matches `^/foo$` against it |
| Scenarios.ComplexRegexp | tests.py:30-32 | configuration `abc/[^/]+/ghi` under `/` matches `/abc/def/ghi`, given that the engine matches `^/abc/[^/]+/ghi$` against it |
| Scenarios.OneLineMatchesPath | mashed_potato.py:40-80 | a one-line configuration under `/` matches every backslash-free path that the engine matches against that line's anchored pattern |
| Scenarios.NewSourceMinifiedOnce | mashed_potato.py:228-246 | a new source is attempted once by the first pass, gets its artifact, leaves the ledger empty exactly when it minified, and is not attempted again without an edit |
| Scenarios.FooIsMinifiedOnce | mashed_potato.py:241-246 | `/p/js/foo.js` is minified once by the first pass and not by the second |
| Scenarios.FirstPassFails | mashed_potato.py:228-246 | a failing new source is recorded in the ledger and is the only line of the error log |
| Scenarios.UneditedFailureIsNotRetried | mashed_potato.py:136-143 | without an edit, a failed source is not attempted again and nothing changes |
| Scenarios.EditedSourceIsFixed | mashed_potato.py:199-216 | after an edit a successful minification empties the ledger and removes the error log |
| Scenarios.FailureIsLoggedThenCleared | mashed_potato.py:192-246 | the error log names a failing source, stays while it is unedited, and disappears once the edited source minifies |
| Scenarios.BadFileScenario | mashed_potato.py:192-246 | while `/p/js/bad.js` fails the error log is exactly `/p/js/bad.js` and a newline; after it is fixed the log is gone |

## Left out

- The regular-expression engine (`re.match`) is a parameter: a `Matcher` decides whether a pattern matches a path. The regexp unit tests are proved under the hypothesis that the engine matches the expected pattern against the path.
- `minify` and `is_installed` (mashed_potato.py:148-189) are the `Minifier` oracle, which says whether the external tool wrote to its error stream. The search of `PATH`, the choice between uglifyjs and the YUI compressor, and the process exit when the tool cannot be launched are not modelled. The one effect kept is that the shell redirection writes the artifact.
- The file system (`os.path.getmtime`, `os.path.exists`, `os.walk`, opening and removing files) is a map of modification times (`Mtimes`) and a map of written files (`Disk`). A directory listing is a sequence of names, and a walk is a sequence of directories.
- DirectoryPass.StampArtifact: the shell command of mashed_potato.py:170-175 inserts the source and artifact paths unquoted, so the redirect writes `MinifiedName(path)` only for paths without whitespace or shell metacharacters. For a listed name such as `x.js y.js` the shell instead truncates `/p/js/x.js` and writes no artifact; names with `;`, `$` or backquotes run further commands. The model assumes every redirect hits the artifact, so `StampedNotMinifiable`, `PassArtifactFrame` and `SecondPassIsIdle` hold only for such plain names.
- DirectoryPass.StampArtifact: the artifact is stamped with the file's clock reading. On a failure the program writes the artifact slightly before `time.time()` is read (mashed_potato.py:200), and the model uses one reading for both. On a success the program reads no time at all, and the model's clock reading only stamps the artifact.
- DirectoryPass.Visit: a listed source whose modification time cannot be read (a dangling link named `x.js`, say) makes `os.path.getmtime` raise and the program stop; the model requires every listed source to have a modification time and does not model that abort. Other listed entries need none, as the source test comes first.
- DirectoryPass.Pass: requires a modification time for every listed source only, for the same reason as `Visit`; the abort on an unreadable source is not modelled.
- DirectoryPass.VisitAndLog: requires a modification time only when the file is a source; the abort on an unreadable source is not modelled.
- DirectoryPass.MinifyAllInDirectory: `os.walk(directory).next()` (mashed_potato.py:242) raises `StopIteration` when the directory is missing or unreadable (for instance a monitored directory deleted after start-up, as the monitored set is fixed then), and the monitor stops. The model takes the listing `names` as an input and does not model that abort.
- DirectoryPass.MinifyAllInDirectory: requires a modification time for every listed source only; the abort on an unreadable source is not modelled.
- Modification times are integers, not floating-point seconds.
- `ContinualMinifier` and `continually_monitor_files` (mashed_potato.py:249-292), the polling and inotify loops, are not modelled. A run of the monitor is a sequence of passes, as in `SecondPassIsIdle` and the scenarios.
- Console messages and the `datetime` formatting of `minify_and_log` (mashed_potato.py:232-237) are not modelled. The same holds for the printed warning of `get_paths_from_configuration`, which is modelled as a list of warned line numbers.
- The command-line entry point (mashed_potato.py:295-327) is not modelled, including reading `.mash` and setting the global `project_path`. The project path is a parameter.
- Which order `MASH_ERRORS` lists its paths in is not modelled: the log is specified up to order (`Mirrors`), as dictionary key order is unspecified.

=== FILE: directory_pass.dfy ===
/** One pass over the files of a monitored directory: each listed file that
    is a minification source and is stale is handed to the minifier, and the
    outcome goes to the error ledger and its log. The file system is a map of
    modification times, the minifier an oracle, the clock a sequence of
    readings. */
module DirectoryPass {
  import opened Wrappers
  import opened Paths
  import opened Sequences
  import opened SourceFiles
  import opened Staleness
  import opened ErrorLedger

  /** The external minifier: whether minifying the file at a path succeeds
      (the external tool wrote nothing on its error stream). */
  type Minifier = string -> bool

  /** Modification times of the files whose time can be read. */
  type Mtimes = map<string, int>

  /** One call of the minifier: on which path, whether it succeeded, and the
      clock reading at which its outcome was recorded. */
  datatype Attempt = Attempt(path: string, succeeded: bool, time: int)

  /** The ledger and the modification times after a pass, and the minifier
      calls the pass made, in order. */
  datatype PassResult = PassResult(ledger: Ledger, mtimes: Mtimes, attempts: seq<Attempt>)

  /** The modification time of the artifact of `source`, if that artifact
      exists. (Only sources, which always have an artifact name, are asked.) */
  function ArtifactTime(source: string, mtimes: Mtimes): (r: Option<int>)
    ensures r.Some? <==> MinifiedName(source).Some? && MinifiedName(source).value in mtimes
    ensures r.Some? ==> r.value == mtimes[MinifiedName(source).value]
  {
    match MinifiedName(source)
    case Some(artifact) => Lookup(mtimes, artifact)
    case None => None
  }

  /** The file at `path` is a source, exists, and `needs_minifying` holds
      of its own, its artifact's and its recorded failure's timestamps. The
      source test comes first: a file that is not a source is never asked
      for its modification time. */
  predicate Due(path: string, mtimes: Mtimes, ledger: Ledger)
    ensures Due(path, mtimes, ledger) ==> MinifiedName(path).Some?
    ensures IsMinifiable(path) && path in mtimes && mtimes[path] >= 0 ==>
              (Due(path, mtimes, ledger)
               <==> !DocumentedSkips(mtimes[path], ArtifactTime(path, mtimes), Lookup(ledger, path)))
  {
    && IsMinifiable(path)
    && path in mtimes
    && NeedsMinifying(mtimes[path], ArtifactTime(path, mtimes), Lookup(ledger, path))
  }

  /** `Due` as a filter for a fixed file system and ledger. */
  function DueIn(mtimes: Mtimes, ledger: Ledger): string -> bool {
    path => Due(path, mtimes, ledger)
  }

  /** The paths `os.path.join(directory, name)` of the listed names. */
  function ListedPaths(dir: string, names: seq<string>): (r: seq<string>)
    ensures |r| == |names|
    ensures forall i :: 0 <= i < |names| ==> r[i] == PathJoin(dir, names[i])
  {
    seq(|names|, i requires 0 <= i < |names| => PathJoin(dir, names[i]))
  }

  /** Names as a directory listing yields them: plain names without `/`,
      none twice. */
  predicate PlainListing(names: seq<string>) {
    && (forall i :: 0 <= i < |names| ==> '/' !in names[i])
    && Distinct(names)
  }

  /** Distinct names in one directory are distinct paths. */
  lemma ListedPathsDistinct(dir: string, names: seq<string>)
    requires PlainListing(names)
    ensures Distinct(ListedPaths(dir, names))
  {
    var paths := ListedPaths(dir, names);
    forall i, j | 0 <= i < j < |paths|
      ensures paths[i] != paths[j]
    {
      if paths[i] == paths[j] {
        JoinInjective(dir, names[i], names[j]);
      }
    }
  }

  /** Every listed source has a modification time. Other listed entries
      (a dangling link, say) need not: they are skipped before anything
      asks for their time. */
  predicate SourcesExist(paths: seq<string>, mtimes: Mtimes) {
    forall i :: 0 <= i < |paths| && IsMinifiable(paths[i]) ==> paths[i] in mtimes
  }

  /** The paths the minifier was called on, in order. */
  function AttemptedPaths(attempts: seq<Attempt>): (r: seq<string>)
    ensures |r| == |attempts|
    ensures forall j :: 0 <= j < |attempts| ==> r[j] == attempts[j].path
  {
    seq(|attempts|, j requires 0 <= j < |attempts| => attempts[j].path)
  }

  lemma AttemptedPathsConcat(a: seq<Attempt>, b: seq<Attempt>)
    ensures AttemptedPaths(a + b) == AttemptedPaths(a) + AttemptedPaths(b)
  {
  }

  /** The artifacts that the attempts wrote: every attempt writes its
      artifact, whether the minifier succeeds or not. */
  function Stamped(attempts: seq<Attempt>): (r: seq<string>)
    ensures forall j :: 0 <= j < |attempts| && MinifiedName(attempts[j].path).Some?
              ==> MinifiedName(attempts[j].path).value in r
    decreases |attempts|
  {
    if |attempts| == 0 then []
    else
      var rest := Stamped(attempts[1..]);
      assert forall j :: 1 <= j < |attempts| ==> attempts[j] == attempts[1..][j - 1];
      match MinifiedName(attempts[0].path)
      case Some(artifact) => [artifact] + rest
      case None => rest
  }

  lemma StampedConcat(a: seq<Attempt>, b: seq<Attempt>)
    ensures Stamped(a + b) == Stamped(a) + Stamped(b)
    decreases |a|
  {
    if |a| == 0 {
      assert a + b == b;
    } else {
      assert (a + b)[0] == a[0];
      assert (a + b)[1..] == a[1..] + b;
      StampedConcat(a[1..], b);
    }
  }

  /** The file system after the minifier ran on `source` at time `now`:
      the shell's output redirection has created or truncated the artifact,
      so it exists, stamped `now`, even when the minifier failed. (The
      command holds the paths unquoted: the redirect reaches the artifact
      for paths without whitespace or shell metacharacters, which the model
      assumes.) */
  function StampArtifact(mtimes: Mtimes, source: string, now: int): (r: Mtimes)
    ensures mtimes.Keys <= r.Keys
    ensures MinifiedName(source).Some? ==> Lookup(r, MinifiedName(source).value) == Some(now)
    ensures MinifiedName(source).Some? ==> ArtifactTime(source, r) == Some(now)
    ensures forall p :: Some(p) != MinifiedName(source) ==> Lookup(r, p) == Lookup(mtimes, p)
  {
    match MinifiedName(source)
    case Some(artifact) => mtimes[artifact := now]
    case None => mtimes
  }

  /** One file of the pass (the body of the loop of
      `minify_all_in_directory`, with `minify_and_log`): a due file is handed
      to the minifier, whose output redirection writes its artifact, and
      the outcome is recorded at `now`; any other file is skipped. */
  function Visit(path: string, mtimes: Mtimes, minifies: Minifier, now: int, ledger: Ledger): (r: PassResult)
    requires IsMinifiable(path) ==> path in mtimes
    ensures |r.attempts| <= 1
    ensures |r.attempts| == 1 <==> Due(path, mtimes, ledger)
    ensures |r.attempts| == 1 ==> r.attempts[0] == Attempt(path, minifies(path), now)
    ensures |r.attempts| == 1 ==> r.ledger == RecordOutcome(ledger, path, !minifies(path), now)
    ensures |r.attempts| == 1 ==> r.mtimes == StampArtifact(mtimes, path, now)
    ensures |r.attempts| == 0 ==> r.ledger == ledger && r.mtimes == mtimes
  {
    if Due(path, mtimes, ledger) then
      var ok := minifies(path);
      PassResult(RecordOutcome(ledger, path, !ok, now), StampArtifact(mtimes, path, now), [Attempt(path, ok, now)])
    else
      PassResult(ledger, mtimes, [])
  }

  /** The loop of `minify_all_in_directory` over the joined `paths` of a
      directory listing, in listing order; the `i`-th file's outcome is
      recorded at clock reading `clock[i]`, and each file is judged on the
      file system as the earlier files left it. The minifier is called at
      most once per listing entry, and no file disappears. Every listed
      source must have a modification time (`os.path.getmtime` raises
      otherwise); other entries are skipped without one. */
  function Pass(paths: seq<string>, mtimes: Mtimes, minifies: Minifier, clock: seq<int>, ledger: Ledger)
    : (r: PassResult)
    requires |clock| == |paths|
    requires SourcesExist(paths, mtimes)
    ensures |r.attempts| <= |paths|
    ensures mtimes.Keys <= r.mtimes.Keys
    decreases |paths|
  {
    if |paths| == 0 then PassResult(ledger, mtimes, [])
    else
      var v := Visit(paths[0], mtimes, minifies, clock[0], ledger);
      var rest := Pass(paths[1..], v.mtimes, minifies, clock[1..], v.ledger);
      PassResult(rest.ledger, rest.mtimes, v.attempts + rest.attempts)
  }

  /** The ledger entry of every path the pass `r` did not attempt is as
      in `ledger`. */
  ghost predicate KeepsUnattempted(ledger: Ledger, r: PassResult) {
    forall k :: k !in AttemptedPaths(r.attempts) ==> Lookup(r.ledger, k) == Lookup(ledger, k)
  }

  /** The modification time of every file the pass `r` did not write is as
      in `mtimes`. */
  ghost predicate KeepsUnstamped(mtimes: Mtimes, r: PassResult) {
    forall a :: a !in Stamped(r.attempts) ==> Lookup(r.mtimes, a) == Lookup(mtimes, a)
  }

  /** After the pass `r`, the ledger holds nothing for each path whose
      attempt succeeded, and the attempt's time for each whose attempt
      failed. */
  predicate RecordsOutcomes(r: PassResult) {
    forall j :: 0 <= j < |r.attempts| ==>
      Lookup(r.ledger, r.attempts[j].path) == if r.attempts[j].succeeded then None else Some(r.attempts[j].time)
  }

  /** The attempt `a` is of the file `paths[i]`, carries the minifier's
      verdict on it, and is stamped with the clock reading `clock[i]`. */
  predicate AttemptOf(paths: seq<string>, minifies: Minifier, clock: seq<int>, a: Attempt, i: int)
    requires |clock| == |paths|
  {
    0 <= i < |paths| && a == Attempt(paths[i], minifies(paths[i]), clock[i])
  }

  /** The attempt `a` is of some listed file, at that file's clock
      reading. */
  ghost predicate FromClock(paths: seq<string>, minifies: Minifier, clock: seq<int>, a: Attempt)
    requires |clock| == |paths|
  {
    exists i :: AttemptOf(paths, minifies, clock, a, i)
  }

  /** Every attempt of the pass `r` is of some listed file, at that file's
      clock reading. */
  ghost predicate AttemptsFromClock(paths: seq<string>, minifies: Minifier, clock: seq<int>, r: PassResult)
    requires |clock| == |paths|
  {
    forall j :: 0 <= j < |r.attempts| ==> FromClock(paths, minifies, clock, r.attempts[j])
  }

  /** "Nothing else changes" for the ledger: a pass changes the ledger
      entries of attempted paths only. */
  lemma {:induction false} PassLedgerFrame(paths: seq<string>, mtimes: Mtimes, minifies: Minifier, clock: seq<int>, ledger: Ledger)
    requires |clock| == |paths|
    requires SourcesExist(paths, mtimes)
    ensures KeepsUnattempted(ledger, Pass(paths, mtimes, minifies, clock, ledger))
    decreases |paths|
  {
    if |paths| > 0 {
      var v := Visit(paths[0], mtimes, minifies, clock[0], ledger);
      var rest := Pass(paths[1..], v.mtimes, minifies, clock[1..], v.ledger);
      PassLedgerFrame(paths[1..], v.mtimes, minifies, clock[1..], v.ledger);
      AttemptedPathsConcat(v.attempts, rest.attempts);
      if |v.attempts| == 1 {
        assert AttemptedPaths(v.attempts) == [paths[0]];
      }
    }
  }

  /** "Nothing else changes" for the file system: a pass changes the
      modification times of the artifacts of its attempts only. */
  lemma {:induction false} PassArtifactFrame(paths: seq<string>, mtimes: Mtimes, minifies: Minifier, clock: seq<int>, ledger: Ledger)
    requires |clock| == |paths|
    requires SourcesExist(paths, mtimes)
    ensures KeepsUnstamped(mtimes, Pass(paths, mtimes, minifies, clock, ledger))
    decreases |paths|
  {
    if |paths| > 0 {
      var v := Visit(paths[0], mtimes, minifies, clock[0], ledger);
      var rest := Pass(paths[1..], v.mtimes, minifies, clock[1..], v.ledger);
      PassArtifactFrame(paths[1..], v.mtimes, minifies, clock[1..], v.ledger);
      StampedConcat(v.attempts, rest.attempts);
      VisitArtifactFrame(paths[0], mtimes, minifies, clock[0], ledger);
    }
  }

  lemma VisitArtifactFrame(path: string, mtimes: Mtimes, minifies: Minifier, now: int, ledger: Ledger)
    requires IsMinifiable(path) ==> path in mtimes
    ensures KeepsUnstamped(mtimes, Visit(path, mtimes, minifies, now, ledger))
  {
    var v := Visit(path, mtimes, minifies, now, ledger);
    if |v.attempts| == 0 {
      assert v.mtimes == mtimes;
    } else {
      MinifiableHasMinifiedName(path);
      var artifact := MinifiedName(path).value;
      assert v.attempts == [Attempt(path, minifies(path), now)];
      assert Stamped(v.attempts) == [artifact];
      assert v.mtimes == mtimes[artifact := now];
    }
  }

  /** Visiting one file does not change whether any other file is
      due: its ledger entry is untouched, and the only file the visit may
      write is the visited file's own artifact, which is not a source and is
      no other source's artifact. */
  lemma VisitKeepsOthersDue(path: string, q: string, mtimes: Mtimes, minifies: Minifier, now: int, ledger: Ledger)
    requires IsMinifiable(path) ==> path in mtimes
    requires q != path
    ensures var v := Visit(path, mtimes, minifies, now, ledger);
            Due(q, v.mtimes, v.ledger) == Due(q, mtimes, ledger)
  {
    var v := Visit(path, mtimes, minifies, now, ledger);
    assert Lookup(v.ledger, q) == Lookup(ledger, q);
    if |v.attempts| == 1 && IsMinifiable(q) {
      StampKeepsOtherSource(mtimes, path, q, now);
    }
  }

  /** Stamping the artifact of `path` changes neither the time nor the
      artifact's time of any other source `q`: an artifact is not a source,
      and different sources have different artifacts. */
  lemma StampKeepsOtherSource(mtimes: Mtimes, path: string, q: string, now: int)
    requires q != path && IsMinifiable(path) && IsMinifiable(q)
    ensures var m := StampArtifact(mtimes, path, now);
            Lookup(m, q) == Lookup(mtimes, q) && ArtifactTime(q, m) == ArtifactTime(q, mtimes)
  {
    MinifiableHasMinifiedName(path);
    MinifiableHasMinifiedName(q);
    var artifact := MinifiedName(path).value;
    MinifiedNameNotMinifiable(path);
    assert q != artifact;
    if MinifiedName(q).value == artifact {
      MinifiedNameInjective(q, path);
    }
  }

  /** The visit of the first file leaves unchanged which of the later files
      are due. */
  lemma LaterFilesKeepDue(paths: seq<string>, mtimes: Mtimes, minifies: Minifier, now: int, ledger: Ledger)
    requires |paths| > 0 && SourcesExist(paths, mtimes) && Distinct(paths)
    ensures var v := Visit(paths[0], mtimes, minifies, now, ledger);
            Filter(DueIn(v.mtimes, v.ledger), paths[1..]) == Filter(DueIn(mtimes, ledger), paths[1..])
  {
    var v := Visit(paths[0], mtimes, minifies, now, ledger);
    var later := paths[1..];
    forall i | 0 <= i < |later|
      ensures DueIn(v.mtimes, v.ledger)(later[i]) == DueIn(mtimes, ledger)(later[i])
    {
      assert later[i] == paths[i + 1];
      VisitKeepsOthersDue(paths[0], later[i], mtimes, minifies, now, ledger);
    }
    FilterCongruent(DueIn(v.mtimes, v.ledger), DueIn(mtimes, ledger), later);
  }

  /** A visit attempts its file exactly when the file is due. */
  lemma VisitAttempts(path: string, mtimes: Mtimes, minifies: Minifier, now: int, ledger: Ledger)
    requires IsMinifiable(path) ==> path in mtimes
    ensures AttemptedPaths(Visit(path, mtimes, minifies, now, ledger).attempts)
            == if Due(path, mtimes, ledger) then [path] else []
  {
    var v := Visit(path, mtimes, minifies, now, ledger);
    if |v.attempts| == 1 {
      assert AttemptedPaths(v.attempts) == [path];
    }
  }

  /** The attempts of a pass are those of its first visit followed by those
      of the rest of the pass. */
  lemma FirstAttempt(paths: seq<string>, mtimes: Mtimes, minifies: Minifier, clock: seq<int>, ledger: Ledger)
    requires |paths| > 0 && |clock| == |paths| && SourcesExist(paths, mtimes)
    ensures var v := Visit(paths[0], mtimes, minifies, clock[0], ledger);
            var rest := Pass(paths[1..], v.mtimes, minifies, clock[1..], v.ledger);
            AttemptedPaths(Pass(paths, mtimes, minifies, clock, ledger).attempts)
            == AttemptedPaths(v.attempts) + AttemptedPaths(rest.attempts)
  {
    var v := Visit(paths[0], mtimes, minifies, clock[0], ledger);
    var rest := Pass(paths[1..], v.mtimes, minifies, clock[1..], v.ledger);
    AttemptedPathsConcat(v.attempts, rest.attempts);
  }

  /** Which files a pass hands to the minifier: exactly the files that are
      sources and stale when the pass starts, in listing order. (Judging each
      file on the file system as the earlier files left it makes no
      difference.) */
  lemma {:induction false} PassAttemptsStaleFiles(paths: seq<string>, mtimes: Mtimes, minifies: Minifier, clock: seq<int>, ledger: Ledger)
    requires |clock| == |paths|
    requires SourcesExist(paths, mtimes)
    requires Distinct(paths)
    ensures AttemptedPaths(Pass(paths, mtimes, minifies, clock, ledger).attempts)
            == Filter(DueIn(mtimes, ledger), paths)
    decreases |paths|
  {
    if |paths| > 0 {
      var v := Visit(paths[0], mtimes, minifies, clock[0], ledger);
      PassAttemptsStaleFiles(paths[1..], v.mtimes, minifies, clock[1..], v.ledger);
      LaterFilesKeepDue(paths, mtimes, minifies, clock[0], ledger);
      FirstAttempt(paths, mtimes, minifies, clock, ledger);
      VisitAttempts(paths[0], mtimes, minifies, clock[0], ledger);
      var rest := Pass(paths[1..], v.mtimes, minifies, clock[1..], v.ledger);
      assert paths == [paths[0]] + paths[1..];
      FilterStep(DueIn(mtimes, ledger), paths[0], paths[1..], AttemptedPaths(v.attempts),
                 AttemptedPaths(rest.attempts), AttemptedPaths(Pass(paths, mtimes, minifies, clock, ledger).attempts));
    }
  }

  /** A pass over a listing that names no file twice hands each file to the
      minifier at most once. */
  lemma PassAttemptsEachFileOnce(paths: seq<string>, mtimes: Mtimes, minifies: Minifier, clock: seq<int>, ledger: Ledger)
    requires |clock| == |paths|
    requires SourcesExist(paths, mtimes)
    requires Distinct(paths)
    ensures Distinct(AttemptedPaths(Pass(paths, mtimes, minifies, clock, ledger).attempts))
  {
    PassAttemptsStaleFiles(paths, mtimes, minifies, clock, ledger);
  }

  /** Filtering `[x] + xs` is `x` if kept, followed by the filtered rest. */
  lemma FilterStep(keep: string -> bool, x: string, xs: seq<string>, first: seq<string>, rest: seq<string>, total: seq<string>)
    requires first == if keep(x) then [x] else []
    requires rest == Filter(keep, xs)
    requires total == first + rest
    ensures total == Filter(keep, [x] + xs)
  {
    FilterCons(keep, x, xs);
  }

  /** Every stamped artifact is the artifact of an attempt. */
  lemma {:induction false} StampedArtifact(attempts: seq<Attempt>, a: string)
    requires a in Stamped(attempts)
    ensures exists j :: 0 <= j < |attempts| && MinifiedName(attempts[j].path) == Some(a)
    decreases |attempts|
  {
    var first := attempts[0];
    if MinifiedName(first.path) != Some(a) {
      assert a in Stamped(attempts[1..]);
      StampedArtifact(attempts[1..], a);
      var j :| 0 <= j < |attempts| - 1 && MinifiedName(attempts[1..][j].path) == Some(a);
      assert attempts[j + 1] == attempts[1..][j];
    }
  }

  /** A pass never writes a source: what it stamps are artifacts. */
  lemma StampedNotMinifiable(attempts: seq<Attempt>, a: string)
    requires a in Stamped(attempts)
    ensures !IsMinifiable(a)
  {
    StampedArtifact(attempts, a);
    var j :| 0 <= j < |attempts| && MinifiedName(attempts[j].path) == Some(a);
    MinifiedNameNotMinifiable(attempts[j].path);
  }

  /** The rest of a pass leaves alone the ledger entry, the modification
      time and the artifact's modification time of the first file, when
      that file is a source no later file repeats. */
  lemma RestKeepsFirst(paths: seq<string>, mtimes: Mtimes, minifies: Minifier, clock: seq<int>, ledger: Ledger)
    requires |paths| > 0 && |clock| == |paths| && SourcesExist(paths, mtimes) && Distinct(paths)
    requires IsMinifiable(paths[0])
    ensures var v := Visit(paths[0], mtimes, minifies, clock[0], ledger);
            var r := Pass(paths, mtimes, minifies, clock, ledger);
            && Lookup(r.ledger, paths[0]) == Lookup(v.ledger, paths[0])
            && Lookup(r.mtimes, paths[0]) == Lookup(v.mtimes, paths[0])
            && ArtifactTime(paths[0], r.mtimes) == ArtifactTime(paths[0], v.mtimes)
  {
    var p := paths[0];
    var v := Visit(p, mtimes, minifies, clock[0], ledger);
    var rest := Pass(paths[1..], v.mtimes, minifies, clock[1..], v.ledger);
    PassAttemptsStaleFiles(paths[1..], v.mtimes, minifies, clock[1..], v.ledger);
    assert p !in paths[1..];
    assert p !in AttemptedPaths(rest.attempts);
    PassLedgerFrame(paths[1..], v.mtimes, minifies, clock[1..], v.ledger);
    PassArtifactFrame(paths[1..], v.mtimes, minifies, clock[1..], v.ledger);
    if p in Stamped(rest.attempts) {
      StampedNotMinifiable(rest.attempts, p);
    }
    MinifiableHasMinifiedName(p);
    var artifact := MinifiedName(p).value;
    if artifact in Stamped(rest.attempts) {
      StampedArtifact(rest.attempts, artifact);
      var j :| 0 <= j < |rest.attempts| && MinifiedName(rest.attempts[j].path) == Some(artifact);
      assert AttemptedPaths(rest.attempts)[j] == rest.attempts[j].path;
      MinifiedNameInjective(p, rest.attempts[j].path);
    }
  }

  /** The outcome of an attempt on the first file is what the ledger holds
      for it after the whole pass. */
  lemma FirstOutcome(paths: seq<string>, mtimes: Mtimes, minifies: Minifier, clock: seq<int>, ledger: Ledger)
    requires |paths| > 0 && |clock| == |paths| && SourcesExist(paths, mtimes) && Distinct(paths)
    requires Due(paths[0], mtimes, ledger)
    ensures Lookup(Pass(paths, mtimes, minifies, clock, ledger).ledger, paths[0])
            == if minifies(paths[0]) then None else Some(clock[0])
  {
    RestKeepsFirst(paths, mtimes, minifies, clock, ledger);
  }

  /** Each attempt's outcome is what the ledger holds for its path after the
      pass: nothing for a success, the attempt's time for a failure. */
  lemma {:induction false} PassOutcomes(paths: seq<string>, mtimes: Mtimes, minifies: Minifier, clock: seq<int>, ledger: Ledger)
    requires |clock| == |paths|
    requires SourcesExist(paths, mtimes)
    requires Distinct(paths)
    ensures RecordsOutcomes(Pass(paths, mtimes, minifies, clock, ledger))
    decreases |paths|
  {
    if |paths| > 0 {
      var v := Visit(paths[0], mtimes, minifies, clock[0], ledger);
      var rest := Pass(paths[1..], v.mtimes, minifies, clock[1..], v.ledger);
      var r := Pass(paths, mtimes, minifies, clock, ledger);
      PassOutcomes(paths[1..], v.mtimes, minifies, clock[1..], v.ledger);
      if |v.attempts| == 1 {
        FirstOutcome(paths, mtimes, minifies, clock, ledger);
      }
      OutcomesConcat(v.attempts, rest, r);
    }
  }

  /** The outcomes of a pass made of a first visit's attempts followed by
      the rest of the pass: those of the rest, together with the first
      attempt's, when its outcome survived the rest. */
  lemma OutcomesConcat(first: seq<Attempt>, rest: PassResult, r: PassResult)
    requires |first| <= 1
    requires r.attempts == first + rest.attempts && r.ledger == rest.ledger
    requires RecordsOutcomes(rest)
    requires |first| == 1 ==> Lookup(r.ledger, first[0].path) == if first[0].succeeded then None else Some(first[0].time)
    ensures RecordsOutcomes(r)
  {
    forall j | 0 <= j < |r.attempts|
      ensures Lookup(r.ledger, r.attempts[j].path)
              == if r.attempts[j].succeeded then None else Some(r.attempts[j].time)
    {
      if j >= |first| {
        assert r.attempts[j] == rest.attempts[j - |first|];
      }
    }
  }

  /** Every attempt is of some file `paths[i]`, carries the minifier's
      verdict on it, and is stamped with that file's clock reading
      `clock[i]`. */
  lemma {:induction false} PassAttemptFacts(paths: seq<string>, mtimes: Mtimes, minifies: Minifier, clock: seq<int>, ledger: Ledger)
    requires |clock| == |paths|
    requires SourcesExist(paths, mtimes)
    ensures AttemptsFromClock(paths, minifies, clock, Pass(paths, mtimes, minifies, clock, ledger))
    decreases |paths|
  {
    if |paths| > 0 {
      var v := Visit(paths[0], mtimes, minifies, clock[0], ledger);
      var rest := Pass(paths[1..], v.mtimes, minifies, clock[1..], v.ledger);
      var r := Pass(paths, mtimes, minifies, clock, ledger);
      PassAttemptFacts(paths[1..], v.mtimes, minifies, clock[1..], v.ledger);
      AttemptFactsStep(paths, minifies, clock, v.attempts, rest, r);
    }
  }

  /** The attempts of a first visit of `paths[0]` at `clock[0]`, followed
      by those of a pass over the rest, are each of some listed file at its
      clock reading. */
  lemma AttemptFactsStep(paths: seq<string>, minifies: Minifier, clock: seq<int>, first: seq<Attempt>,
                         rest: PassResult, r: PassResult)
    requires |paths| > 0 && |clock| == |paths|
    requires |first| <= 1
    requires |first| == 1 ==> first[0] == Attempt(paths[0], minifies(paths[0]), clock[0])
    requires r.attempts == first + rest.attempts
    requires AttemptsFromClock(paths[1..], minifies, clock[1..], rest)
    ensures AttemptsFromClock(paths, minifies, clock, r)
  {
    forall j | 0 <= j < |r.attempts|
      ensures FromClock(paths, minifies, clock, r.attempts[j])
    {
      if j < |first| {
        assert AttemptOf(paths, minifies, clock, r.attempts[j], 0);
      } else {
        var k := j - |first|;
        assert r.attempts[j] == rest.attempts[k];
        assert FromClock(paths[1..], minifies, clock[1..], rest.attempts[k]);
        var i :| AttemptOf(paths[1..], minifies, clock[1..], rest.attempts[k], i);
        assert AttemptOf(paths, minifies, clock, r.attempts[j], i + 1);
      }
    }
  }

  /** Every clock reading is after the epoch and later than the last
      modification of every listed source. */
  predicate ClockAfterSources(paths: seq<string>, mtimes: Mtimes, clock: seq<int>)
    requires SourcesExist(paths, mtimes)
  {
    && (forall i :: 0 <= i < |clock| ==> clock[i] > 0)
    && (forall i, k :: 0 <= i < |clock| && 0 <= k < |paths| && IsMinifiable(paths[k]) ==> mtimes[paths[k]] < clock[i])
  }

  /** None of `paths` is due. */
  predicate Settled(paths: seq<string>, mtimes: Mtimes, ledger: Ledger) {
    forall k :: 0 <= k < |paths| ==> !Due(paths[k], mtimes, ledger)
  }

  /** Visiting a source at a time after its last modification settles it:
      the attempt leaves an artifact newer than the source, and a failure
      also a ledger entry newer than the source. */
  lemma VisitSettles(path: string, mtimes: Mtimes, minifies: Minifier, now: int, ledger: Ledger)
    requires IsMinifiable(path) ==> path in mtimes
    requires now > 0
    requires IsMinifiable(path) ==> mtimes[path] < now
    ensures var v := Visit(path, mtimes, minifies, now, ledger);
            !Due(path, v.mtimes, v.ledger)
  {
    var v := Visit(path, mtimes, minifies, now, ledger);
    if Due(path, mtimes, ledger) {
      MinifiableHasMinifiedName(path);
      MinifiedNameNotMinifiable(path);
      var artifact := MinifiedName(path).value;
      assert v.mtimes == mtimes[artifact := now];
      assert v.mtimes[path] == mtimes[path];
      assert ArtifactTime(path, v.mtimes) == Some(now);
    }
  }

  /** The first visit changes no source's modification time, so the clock
      stays later than the sources for the rest of the pass. */
  lemma ClockAfterRest(paths: seq<string>, mtimes: Mtimes, minifies: Minifier, clock: seq<int>, ledger: Ledger)
    requires |paths| > 0 && |clock| == |paths| && SourcesExist(paths, mtimes)
    requires ClockAfterSources(paths, mtimes, clock)
    ensures var v := Visit(paths[0], mtimes, minifies, clock[0], ledger);
            SourcesExist(paths[1..], v.mtimes) && ClockAfterSources(paths[1..], v.mtimes, clock[1..])
  {
    var v := Visit(paths[0], mtimes, minifies, clock[0], ledger);
    VisitArtifactFrame(paths[0], mtimes, minifies, clock[0], ledger);
    forall k | 0 <= k < |paths| - 1 && IsMinifiable(paths[1..][k])
      ensures v.mtimes[paths[1..][k]] == mtimes[paths[k + 1]]
    {
      if paths[1..][k] in Stamped(v.attempts) {
        StampedNotMinifiable(v.attempts, paths[1..][k]);
      }
    }
  }

  /** After a pass whose clock reads later than every source was modified,
      no listed file is due any more. */
  lemma {:induction false} PassSettles(paths: seq<string>, mtimes: Mtimes, minifies: Minifier, clock: seq<int>, ledger: Ledger)
    requires |clock| == |paths|
    requires SourcesExist(paths, mtimes)
    requires Distinct(paths)
    requires ClockAfterSources(paths, mtimes, clock)
    ensures Settled(paths, Pass(paths, mtimes, minifies, clock, ledger).mtimes, Pass(paths, mtimes, minifies, clock, ledger).ledger)
    decreases |paths|
  {
    if |paths| > 0 {
      var v := Visit(paths[0], mtimes, minifies, clock[0], ledger);
      var rest := Pass(paths[1..], v.mtimes, minifies, clock[1..], v.ledger);
      var r := Pass(paths, mtimes, minifies, clock, ledger);
      assert r.mtimes == rest.mtimes && r.ledger == rest.ledger;
      ClockAfterRest(paths, mtimes, minifies, clock, ledger);
      PassSettles(paths[1..], v.mtimes, minifies, clock[1..], v.ledger);
      if IsMinifiable(paths[0]) {
        RestKeepsFirst(paths, mtimes, minifies, clock, ledger);
        VisitSettles(paths[0], mtimes, minifies, clock[0], ledger);
      }
      forall k | 1 <= k < |paths|
        ensures !Due(paths[k], r.mtimes, r.ledger)
      {
        assert paths[k] == paths[1..][k - 1];
      }
    }
  }

  /** Quiescence: once a pass has run with a clock later than every
      source's last modification, another pass over the same listing, with
      no file edited in between, hands nothing to the minifier. */
  lemma SecondPassIsIdle(paths: seq<string>, mtimes: Mtimes, minifies: Minifier, clock: seq<int>, clock': seq<int>, ledger: Ledger)
    requires |clock| == |paths| && |clock'| == |paths|
    requires SourcesExist(paths, mtimes)
    requires Distinct(paths)
    requires ClockAfterSources(paths, mtimes, clock)
    ensures var r := Pass(paths, mtimes, minifies, clock, ledger);
            Pass(paths, r.mtimes, minifies, clock', r.ledger).attempts == []
  {
    var r := Pass(paths, mtimes, minifies, clock, ledger);
    PassSettles(paths, mtimes, minifies, clock, ledger);
    assert SourcesExist(paths, r.mtimes);
    PassAttemptsStaleFiles(paths, r.mtimes, minifies, clock', r.ledger);
    FilterEmpty(DueIn(r.mtimes, r.ledger), paths);
  }

  /** What a pass comes to when the attempts `done` have been made and
      the files from `paths[i]` on remain to be visited. */
  function Resume(paths: seq<string>, i: nat, mtimes: Mtimes, minifies: Minifier, clock: seq<int>, ledger: Ledger,
                  done: seq<Attempt>): PassResult
    requires i <= |paths| && |clock| == |paths| && SourcesExist(paths[i..], mtimes)
  {
    var rest := Pass(paths[i..], mtimes, minifies, clock[i..], ledger);
    PassResult(rest.ledger, rest.mtimes, done + rest.attempts)
  }

  /** Resuming before the first file is the whole pass; resuming after the
      last file is what has been done. */
  lemma ResumeEnds(paths: seq<string>, mtimes: Mtimes, minifies: Minifier, clock: seq<int>, ledger: Ledger,
                   done: seq<Attempt>)
    requires |clock| == |paths| && SourcesExist(paths, mtimes)
    ensures SourcesExist(paths[0..], mtimes)
    ensures Resume(paths, 0, mtimes, minifies, clock, ledger, []) == Pass(paths, mtimes, minifies, clock, ledger)
    ensures Resume(paths, |paths|, mtimes, minifies, clock, ledger, done) == PassResult(ledger, mtimes, done)
  {
    assert paths[0..] == paths && clock[0..] == clock;
    assert [] + Pass(paths, mtimes, minifies, clock, ledger).attempts == Pass(paths, mtimes, minifies, clock, ledger).attempts;
    assert done + [] == done;
  }

  /** Resuming at the `i`-th file is resuming at the next one after that
      file's visit. */
  lemma PassStep(paths: seq<string>, i: nat, mtimes: Mtimes, minifies: Minifier, clock: seq<int>, ledger: Ledger,
                 done: seq<Attempt>)
    requires i < |paths| && |clock| == |paths| && SourcesExist(paths[i..], mtimes)
    ensures var v := Visit(paths[i], mtimes, minifies, clock[i], ledger);
            && SourcesExist(paths[i + 1..], v.mtimes)
            && Resume(paths, i, mtimes, minifies, clock, ledger, done)
               == Resume(paths, i + 1, v.mtimes, minifies, clock, v.ledger, done + v.attempts)
  {
    var v := Visit(paths[i], mtimes, minifies, clock[i], ledger);
    var after := PassFrom(paths, i, mtimes, minifies, clock, ledger);
    assert done + (v.attempts + after.attempts) == (done + v.attempts) + after.attempts;
  }

  /** The pass from the `i`-th file on is that file's visit followed by the
      pass from the next file on. */
  lemma PassFrom(paths: seq<string>, i: nat, mtimes: Mtimes, minifies: Minifier, clock: seq<int>, ledger: Ledger)
    returns (after: PassResult)
    requires i < |paths| && |clock| == |paths| && SourcesExist(paths[i..], mtimes)
    ensures var v := Visit(paths[i], mtimes, minifies, clock[i], ledger);
            && SourcesExist(paths[i + 1..], v.mtimes)
            && after == Pass(paths[i + 1..], v.mtimes, minifies, clock[i + 1..], v.ledger)
            && Pass(paths[i..], mtimes, minifies, clock[i..], ledger)
               == PassResult(after.ledger, after.mtimes, v.attempts + after.attempts)
  {
    var ps, cs := paths[i..], clock[i..];
    assert ps[0] == paths[i] && ps[1..] == paths[i + 1..];
    assert cs[0] == clock[i] && cs[1..] == clock[i + 1..];
    var v := Visit(paths[i], mtimes, minifies, clock[i], ledger);
    assert SourcesExist(ps[1..], v.mtimes);
    after := Pass(paths[i + 1..], v.mtimes, minifies, clock[i + 1..], v.ledger);
  }

  /** `minify_and_log`: runs the minifier on `path`, whose output
      redirection writes the artifact whatever the outcome, and records the
      outcome at `now` with `update_error_logs`. */
  method MinifyAndLog(projectPath: string, path: string, mtimes: Mtimes, minifies: Minifier, now: int,
                      ledger: Ledger, disk: Disk)
    returns (ok: bool, mtimes': Mtimes, ledger': Ledger, disk': Disk)
    ensures ok == minifies(path)
    ensures mtimes' == StampArtifact(mtimes, path, now)
    ensures ledger' == RecordOutcome(ledger, path, !ok, now)
    ensures Mirrors(Lookup(disk', ErrorLogPath(projectPath)), ledger')
    ensures forall p :: p != ErrorLogPath(projectPath) ==> Lookup(disk', p) == Lookup(disk, p)
  {
    ok := minifies(path);
    mtimes' := StampArtifact(mtimes, path, now);
    ledger', disk' := UpdateErrorLogs(projectPath, ledger, disk, !ok, path, now);
  }

  /** One iteration of the loop of `minify_all_in_directory`: the file
      `paths[i]` is handed to `minify_and_log` when it is a source and
      `needs_minifying`. The iteration is the file's `Visit`; the disk
      changes only when the file is attempted, and then only in the error
      log, which afterwards mirrors the ledger. */
  method VisitAndLog(projectPath: string, path: string, mtimes: Mtimes, minifies: Minifier, now: int,
                     ledger: Ledger, disk: Disk)
    returns (v: PassResult, disk': Disk)
    requires IsMinifiable(path) ==> path in mtimes
    ensures v == Visit(path, mtimes, minifies, now, ledger)
    ensures forall p :: p != ErrorLogPath(projectPath) ==> Lookup(disk', p) == Lookup(disk, p)
    ensures |v.attempts| > 0 ==> Mirrors(Lookup(disk', ErrorLogPath(projectPath)), v.ledger)
    ensures |v.attempts| == 0 ==> disk' == disk
  {
    if IsMinifiable(path) && NeedsMinifying(mtimes[path], ArtifactTime(path, mtimes), Lookup(ledger, path)) {
      var ok, mtimes', ledger';
      ok, mtimes', ledger', disk' := MinifyAndLog(projectPath, path, mtimes, minifies, now, ledger, disk);
      v := PassResult(ledger', mtimes', [Attempt(path, ok, now)]);
    } else {
      v := PassResult(ledger, mtimes, []);
      disk' := disk;
    }
  }

  /** `minify_all_in_directory` with its side effects: walks the listing
      `names` of `dir` and visits each file in turn. The result is the pass
      `Pass` describes; no file but the error log changes on disk, and after
      any attempt the error log mirrors the final ledger. */
  method MinifyAllInDirectory(projectPath: string, dir: string, names: seq<string>, mtimes: Mtimes,
                              minifies: Minifier, clock: seq<int>, ledger: Ledger, disk: Disk)
    returns (r: PassResult, disk': Disk)
    requires |clock| == |names|
    requires SourcesExist(ListedPaths(dir, names), mtimes)
    ensures r == Pass(ListedPaths(dir, names), mtimes, minifies, clock, ledger)
    ensures forall p :: p != ErrorLogPath(projectPath) ==> Lookup(disk', p) == Lookup(disk, p)
    ensures |r.attempts| > 0 ==> Mirrors(Lookup(disk', ErrorLogPath(projectPath)), r.ledger)
    ensures |r.attempts| == 0 ==> disk' == disk
  {
    var paths := ListedPaths(dir, names);
    var logPath := ErrorLogPath(projectPath);
    var i := 0;
    r := PassResult(ledger, mtimes, []);
    disk' := disk;
    ResumeEnds(paths, mtimes, minifies, clock, ledger, []);
    while i < |paths|
      invariant 0 <= i <= |paths|
      invariant SourcesExist(paths[i..], r.mtimes)
      invariant Resume(paths, i, r.mtimes, minifies, clock, r.ledger, r.attempts) == Pass(paths, mtimes, minifies, clock, ledger)
      invariant forall p :: p != logPath ==> Lookup(disk', p) == Lookup(disk, p)
      invariant |r.attempts| > 0 ==> Mirrors(Lookup(disk', logPath), r.ledger)
      invariant |r.attempts| == 0 ==> disk' == disk
    {
      assert paths[i..][0] == paths[i];
      PassStep(paths, i, r.mtimes, minifies, clock, r.ledger, r.attempts);
      var v;
      v, disk' := VisitAndLog(projectPath, paths[i], r.mtimes, minifies, clock[i], r.ledger, disk');
      r := PassResult(v.ledger, v.mtimes, r.attempts + v.attempts);
      i := i + 1;
    }
    ResumeEnds(paths, r.mtimes, minifies, clock, r.ledger, r.attempts);
  }
}

=== FILE: error_ledger.dfy ===
/** The ledger of files that failed to minify, and its mirror on disk, the
    `MASH_ERRORS` file in the project directory. */
module ErrorLedger {
  import opened Wrappers
  import opened Text
  import opened Paths

  /** Failing source paths, each with the time of its latest failure. */
  type Ledger = map<string, int>

  /** The files on disk that the ledger may touch: path to written lines. */
  type Disk = map<string, seq<string>>

  /** Where the error log lives: `MASH_ERRORS` joined onto the project
      directory. */
  function ErrorLogPath(projectPath: string): (r: string)
    ensures Basename(r) == "MASH_ERRORS"
    ensures StartsWith(r, projectPath)
  {
    BasenameOfJoin(projectPath, "MASH_ERRORS");
    NotAbsolute("MASH_ERRORS");
    PathJoin(projectPath, "MASH_ERRORS")
  }

  /** The ledger after one minification attempt on `path`: a failure
      (re)records `path` with the time `now`; a success drops it, whether or
      not it was there. No other entry changes. */
  function RecordOutcome(ledger: Ledger, path: string, errored: bool, now: int): (r: Ledger)
    ensures errored ==> path in r && r[path] == now
    ensures !errored ==> path !in r
    ensures forall k :: k != path ==> Lookup(r, k) == Lookup(ledger, k)
  {
    if errored then ledger[path := now] else ledger - {path}
  }

  /** Removing a path that is not recorded leaves the ledger as it was. */
  lemma SuccessOfUnrecordedPathIsNoOp(ledger: Ledger, path: string, now: int)
    requires path !in ledger
    ensures RecordOutcome(ledger, path, false, now) == ledger
  {
  }

  /** The line written for a failing path. */
  function LogLine(path: string): string {
    path + "\n"
  }

  /** A written line: anything ending in a newline. */
  predicate IsLogLine(line: string) {
    |line| > 0 && line[|line| - 1] == '\n'
  }

  /** The path a written line names. */
  function LineKey(line: string): string
    requires IsLogLine(line)
  {
    line[..|line| - 1]
  }

  /** The error log on disk reflects the ledger: it is absent exactly when
      the ledger is empty, and otherwise holds one line per failing path, each
      the path followed by a newline, in no particular order. */
  predicate Mirrors(log: Option<seq<string>>, ledger: Ledger) {
    match log
    case None => ledger == map[]
    case Some(lines) =>
      && ledger != map[]
      && |lines| == |ledger|
      && (forall i :: 0 <= i < |lines| ==> IsLogLine(lines[i]) && LineKey(lines[i]) in ledger)
      && (forall k :: k in ledger ==> LogLine(k) in lines)
      && (forall i, j :: 0 <= i < j < |lines| ==> lines[i] != lines[j])
  }

  /** The paths named by the lines of a log. */
  function LoggedPaths(lines: seq<string>): set<string>
    requires forall i :: 0 <= i < |lines| ==> IsLogLine(lines[i])
  {
    set i | 0 <= i < |lines| :: LineKey(lines[i])
  }

  /** Reading a mirroring log back gives exactly the ledger's paths. */
  lemma MirrorsLogsEveryPath(lines: seq<string>, ledger: Ledger)
    requires Mirrors(Some(lines), ledger)
    ensures LoggedPaths(lines) == ledger.Keys
  {
    forall k | k in ledger
      ensures k in LoggedPaths(lines)
    {
      var i :| 0 <= i < |lines| && lines[i] == LogLine(k);
      assert LineKey(lines[i]) == k;
    }
  }

  /** A ledger with a single path has exactly one mirroring log. */
  lemma MirrorsSingleton(lines: seq<string>, path: string, time: int)
    requires Mirrors(Some(lines), map[path := time])
    ensures lines == [LogLine(path)]
  {
    assert |lines| == 1;
    assert LogLine(path) in lines;
  }

  /** Taking the key back out of a written line gives the path. */
  lemma LineKeyOfLogLine(path: string)
    ensures IsLogLine(LogLine(path)) && LineKey(LogLine(path)) == path
  {
  }

  /** The paths of `keys`, each once, in whatever order they come out of
      the set (the iteration order of a Python dictionary is unspecified). */
  method ListPaths(keys: set<string>) returns (written: seq<string>)
    ensures |written| == |keys|
    ensures forall k :: k in written <==> k in keys
    ensures forall i, j :: 0 <= i < j < |written| ==> written[i] != written[j]
  {
    written := [];
    var pending := keys;
    while pending != {}
      invariant pending <= keys
      invariant |written| + |pending| == |keys|
      invariant forall i :: 0 <= i < |written| ==> written[i] in keys && written[i] !in pending
      invariant forall k :: k in keys && k !in pending ==> k in written
      invariant forall i, j :: 0 <= i < j < |written| ==> written[i] != written[j]
      decreases |pending|
    {
      var k :| k in pending;
      written := written + [k];
      pending := pending - {k};
    }
  }

  /** The lines written for the paths `written`, in that order. */
  function LogLines(written: seq<string>): seq<string> {
    seq(|written|, i requires 0 <= i < |written| => LogLine(written[i]))
  }

  /** Listing each failing path once and writing a line for each mirrors
      the ledger. */
  lemma LogLinesMirror(written: seq<string>, ledger: Ledger)
    requires ledger != map[]
    requires |written| == |ledger.Keys|
    requires forall k :: k in written <==> k in ledger
    requires forall i, j :: 0 <= i < j < |written| ==> written[i] != written[j]
    ensures Mirrors(Some(LogLines(written)), ledger)
  {
    var lines := LogLines(written);
    forall i | 0 <= i < |lines|
      ensures IsLogLine(lines[i]) && LineKey(lines[i]) == written[i]
    {
      LineKeyOfLogLine(written[i]);
    }
    forall k | k in ledger
      ensures LogLine(k) in lines
    {
      var i :| 0 <= i < |written| && written[i] == k;
      assert lines[i] == LogLine(k);
    }
  }

  /** Writes the error log for `ledger`, one line per path in whatever
      order the keys come out, or no log at all for an empty ledger. */
  method WriteErrorLog(ledger: Ledger) returns (log: Option<seq<string>>)
    ensures Mirrors(log, ledger)
  {
    if ledger == map[] {
      return None;
    }
    var written := ListPaths(ledger.Keys);
    LogLinesMirror(written, ledger);
    return Some(LogLines(written));
  }

  /** `update_error_logs`: records the outcome of one attempt on `path` at
      time `now`, then rewrites the error log at `ErrorLogPath(projectPath)`
      from scratch, or removes it when nothing is failing. No other file on
      disk changes. */
  method UpdateErrorLogs(projectPath: string, ledger: Ledger, disk: Disk, errored: bool, path: string, now: int)
    returns (ledger': Ledger, disk': Disk)
    ensures ledger' == RecordOutcome(ledger, path, errored, now)
    ensures Mirrors(Lookup(disk', ErrorLogPath(projectPath)), ledger')
    ensures forall p :: p != ErrorLogPath(projectPath) ==> Lookup(disk', p) == Lookup(disk, p)
  {
    ledger' := RecordOutcome(ledger, path, errored, now);
    var logPath := ErrorLogPath(projectPath);
    var log := WriteErrorLog(ledger');
    match log
    case Some(lines) =>
      disk' := disk[logPath := lines];
    case None =>
      disk' := disk - {logPath};
  }
}

=== FILE: path_matcher.dfy ===
/** Turning the lines of a `.mash` configuration into anchored path
    patterns, matching paths against them, and choosing the monitored
    directories. The regular-expression engine itself is abstract. */
module PathMatcher {
  import opened Text
  import opened Paths
  import opened Sequences

  /** A regular-expression engine: `matches(pattern, path)` holds when
      `re.match(pattern, path)` finds a match. */
  type Matcher = (string, string) -> bool

  /** The pattern for one configuration line: the line joined onto the
      project root, every `\` turned into `/`, anchored with `^` and `$`. */
  function PathRegexp(root: string, relative: string): (r: string)
    ensures |r| == |PathJoin(root, relative)| + 2
    ensures r[0] == '^' && r[|r| - 1] == '$'
    ensures '\\' !in r
  {
    "^" + ReplaceChar(PathJoin(root, relative), '\\', '/') + "$"
  }

  /** Apart from the anchors, the pattern is the joined path character for
      character, except that each `\` has become `/`. */
  lemma PathRegexpSpec(root: string, relative: string)
    ensures var joined := PathJoin(root, relative);
            forall i :: 0 <= i < |joined| ==>
              PathRegexp(root, relative)[i + 1] == (if joined[i] == '\\' then '/' else joined[i])
  {
  }

  /** A line, once stripped, that the loader looks at: not blank and not a
      `#` comment. */
  predicate IsDirective(line: string) {
    line != "" && !StartsWith(line, "#")
  }

  /** A stripped line that becomes a pattern: a directive that does not end
      with `/` (those only draw a warning). */
  predicate IsPatternLine(line: string) {
    IsDirective(line) && !EndsWith(line, "/")
  }

  /** A stripped line that is rejected with a warning: a directive ending
      with `/`. */
  predicate IsWarningLine(line: string) {
    IsDirective(line) && EndsWith(line, "/")
  }

  /** Line number `w` of `lines`, whose first line is numbered `number`, is
      rejected with a warning. */
  predicate WarnsAt(lines: seq<string>, number: nat, w: nat) {
    number <= w < number + |lines| && IsWarningLine(Strip(lines[w - number]))
  }

  /** What loading a configuration yields: the patterns in line order, and
      the 1-based numbers of the lines rejected for ending with `/`. */
  datatype Compiled = Compiled(patterns: seq<string>, warnings: seq<nat>)

  /** Loads `lines`, the first of which is line number `number`. Every
      warning names a rejected line, in increasing line order. */
  function CompileLines(root: string, lines: seq<string>, number: nat): (c: Compiled)
    ensures |c.patterns| + |c.warnings| <= |lines|
    ensures forall k :: 0 <= k < |c.warnings| ==> WarnsAt(lines, number, c.warnings[k])
    ensures forall k, l :: 0 <= k < l < |c.warnings| ==> c.warnings[k] < c.warnings[l]
    decreases |lines|
  {
    if |lines| == 0 then Compiled([], [])
    else
      var rest := CompileLines(root, lines[1..], number + 1);
      var line := Strip(lines[0]);
      var c := if !IsDirective(line) then rest
               else if EndsWith(line, "/") then Compiled(rest.patterns, [number] + rest.warnings)
               else Compiled([PathRegexp(root, line)] + rest.patterns, rest.warnings);
      CompileStep(lines, number, rest, c, IsDirective(line) && EndsWith(line, "/"));
      c
  }

  /** Loading one more line, numbered `number`, in front of `lines[1..]`
      keeps the warnings about rejected lines, in increasing order: the line
      is rejected with a warning (`warned`), or it is skipped or adds one
      pattern. */
  lemma CompileStep(lines: seq<string>, number: nat, rest: Compiled, c: Compiled, warned: bool)
    requires |lines| > 0
    requires |rest.patterns| + |rest.warnings| <= |lines| - 1
    requires forall k :: 0 <= k < |rest.warnings| ==> WarnsAt(lines[1..], number + 1, rest.warnings[k])
    requires forall k, l :: 0 <= k < l < |rest.warnings| ==> rest.warnings[k] < rest.warnings[l]
    requires warned ==> IsWarningLine(Strip(lines[0])) && c == Compiled(rest.patterns, [number] + rest.warnings)
    requires !warned ==> c.warnings == rest.warnings && |c.patterns| <= |rest.patterns| + 1
    ensures |c.patterns| + |c.warnings| <= |lines|
    ensures forall k :: 0 <= k < |c.warnings| ==> WarnsAt(lines, number, c.warnings[k])
    ensures forall k, l :: 0 <= k < l < |c.warnings| ==> c.warnings[k] < c.warnings[l]
  {
    WarningsOfRest(lines, number, rest.warnings);
    if warned {
      assert WarnsAt(lines, number, number);
      forall k | 0 < k < |c.warnings|
        ensures c.warnings[k] == rest.warnings[k - 1]
      {
      }
    }
  }

  /** A warning about a line of `lines[1..]` (numbered from `number + 1`)
      is a warning about a line of `lines` after the first. */
  lemma WarningsOfRest(lines: seq<string>, number: nat, ws: seq<nat>)
    requires |lines| > 0
    requires forall k :: 0 <= k < |ws| ==> WarnsAt(lines[1..], number + 1, ws[k])
    ensures forall k :: 0 <= k < |ws| ==> WarnsAt(lines, number, ws[k]) && number < ws[k]
  {
    forall k | 0 <= k < |ws|
      ensures WarnsAt(lines, number, ws[k])
    {
      assert lines[1..][ws[k] - (number + 1)] == lines[ws[k] - number];
    }
  }

  /** `get_paths_from_configuration`: the configuration text is split on
      newlines and loaded line by line, numbering lines from 1. */
  function PathsFromConfiguration(root: string, text: string): (c: Compiled)
    ensures |c.patterns| + |c.warnings| <= |Split(text, '\n')|
    ensures forall k :: 0 <= k < |c.warnings| ==> WarnsAt(Split(text, '\n'), 1, c.warnings[k])
  {
    CompileLines(root, Split(text, '\n'), 1)
  }

  /** Each line with its surrounding whitespace removed. */
  function StrippedLines(lines: seq<string>): seq<string> {
    seq(|lines|, i requires 0 <= i < |lines| => Strip(lines[i]))
  }

  /** The pattern of each of `relatives`, in order. */
  function RegexpsOf(root: string, relatives: seq<string>): (r: seq<string>)
    ensures |r| == |relatives|
  {
    if |relatives| == 0 then [] else [PathRegexp(root, relatives[0])] + RegexpsOf(root, relatives[1..])
  }

  lemma RegexpsOfCons(root: string, first: string, rest: seq<string>)
    ensures RegexpsOf(root, [first] + rest) == [PathRegexp(root, first)] + RegexpsOf(root, rest)
  {
    assert ([first] + rest)[0] == first && ([first] + rest)[1..] == rest;
  }

  /** The loader produces exactly one pattern per pattern line, in line
      order: its patterns are those of the stripped lines that are neither
      blank, nor comments, nor end in `/`. */
  lemma {:induction false} CompileLinesPatterns(root: string, lines: seq<string>, number: nat)
    ensures CompileLines(root, lines, number).patterns
            == RegexpsOf(root, Filter(IsPatternLine, StrippedLines(lines)))
    decreases |lines|
  {
    if |lines| > 0 {
      CompileLinesPatterns(root, lines[1..], number + 1);
      PatternsStep(root, lines, number);
      PatternLinesStep(root, lines);
    }
  }

  /** The pattern of the first line, if it is a pattern line, followed by
      those of the rest. */
  function FirstPattern(root: string, lines: seq<string>): seq<string>
    requires |lines| > 0
  {
    if IsPatternLine(Strip(lines[0])) then [PathRegexp(root, Strip(lines[0]))] else []
  }

  /** Loading one more line in front: its pattern, if any, comes before
      the patterns of the later lines. */
  lemma PatternsStep(root: string, lines: seq<string>, number: nat)
    requires |lines| > 0
    ensures CompileLines(root, lines, number).patterns
            == FirstPattern(root, lines) + CompileLines(root, lines[1..], number + 1).patterns
  {
  }

  /** The patterns of the pattern lines of `lines`: the first line's, if
      any, followed by those of the rest. */
  lemma PatternLinesStep(root: string, lines: seq<string>)
    requires |lines| > 0
    ensures RegexpsOf(root, Filter(IsPatternLine, StrippedLines(lines)))
            == FirstPattern(root, lines) + RegexpsOf(root, Filter(IsPatternLine, StrippedLines(lines[1..])))
  {
    var stripped := StrippedLines(lines);
    assert stripped == [Strip(lines[0])] + StrippedLines(lines[1..]);
    var rest := Filter(IsPatternLine, StrippedLines(lines[1..]));
    FilterCons(IsPatternLine, Strip(lines[0]), StrippedLines(lines[1..]));
    if IsPatternLine(Strip(lines[0])) {
      RegexpsOfCons(root, Strip(lines[0]), rest);
    }
  }

  /** The consecutive line numbers `number`, `number + 1`, ... of `count`
      lines. */
  function LineNumbers(number: nat, count: nat): (r: seq<nat>)
    ensures |r| == count
    ensures forall i :: 0 <= i < count ==> r[i] == number + i
  {
    seq(count, i requires 0 <= i < count => number + i)
  }

  /** `WarnsAt` as a filter on line numbers. */
  function WarnsIn(lines: seq<string>, number: nat): nat -> bool {
    (w: nat) => WarnsAt(lines, number, w)
  }

  /** The converse of the warnings' soundness: the loader warns about
      every rejected line and about nothing else, once each, in line
      order. */
  lemma {:induction false} CompileLinesWarnings(root: string, lines: seq<string>, number: nat)
    ensures CompileLines(root, lines, number).warnings
            == Filter(WarnsIn(lines, number), LineNumbers(number, |lines|))
    decreases |lines|
  {
    if |lines| > 0 {
      CompileLinesWarnings(root, lines[1..], number + 1);
      WarningsStep(root, lines, number);
      WarnsInStep(lines, number);
    }
  }

  /** Loading one more line in front: a warning about it, if it is
      rejected, comes before the warnings about the later lines. */
  lemma WarningsStep(root: string, lines: seq<string>, number: nat)
    requires |lines| > 0
    ensures CompileLines(root, lines, number).warnings
            == (if WarnsAt(lines, number, number) then [number] else []) + CompileLines(root, lines[1..], number + 1).warnings
  {
  }

  /** Filtering the line numbers of `lines`: the first line's number, if
      it is warned about, followed by the filtered numbers of the rest. */
  lemma WarnsInStep(lines: seq<string>, number: nat)
    requires |lines| > 0
    ensures Filter(WarnsIn(lines, number), LineNumbers(number, |lines|))
            == (if WarnsAt(lines, number, number) then [number] else [])
               + Filter(WarnsIn(lines[1..], number + 1), LineNumbers(number + 1, |lines| - 1))
  {
    var later := LineNumbers(number + 1, |lines| - 1);
    assert LineNumbers(number, |lines|) == [number] + later;
    forall i | 0 <= i < |later|
      ensures WarnsIn(lines, number)(later[i]) == WarnsIn(lines[1..], number + 1)(later[i])
    {
      assert lines[1..][i] == lines[i + 1];
    }
    FilterCongruent(WarnsIn(lines, number), WarnsIn(lines[1..], number + 1), later);
    FilterCons(WarnsIn(lines, number), number, later);
  }

  /** The configuration-level statement: warnings go to exactly the
      directive lines ending with `/`, numbered from 1, in line order. */
  lemma ConfigurationWarnings(root: string, text: string)
    ensures PathsFromConfiguration(root, text).warnings
            == Filter(WarnsIn(Split(text, '\n'), 1), LineNumbers(1, |Split(text, '\n')|))
    ensures forall w :: w in PathsFromConfiguration(root, text).warnings <==> WarnsAt(Split(text, '\n'), 1, w)
  {
    var lines := Split(text, '\n');
    CompileLinesWarnings(root, lines, 1);
    forall w | WarnsAt(lines, 1, w)
      ensures w in LineNumbers(1, |lines|)
    {
      assert LineNumbers(1, |lines|)[w - 1] == w;
    }
  }

  /** The configuration-level statement: one pattern per pattern line. */
  lemma ConfigurationPatterns(root: string, text: string)
    ensures PathsFromConfiguration(root, text).patterns
            == RegexpsOf(root, Filter(IsPatternLine, StrippedLines(Split(text, '\n'))))
  {
    CompileLinesPatterns(root, Split(text, '\n'), 1);
  }

  /** A configuration yields no pattern exactly when each of its lines is
      blank, a comment, or ends with `/`. */
  lemma NoPatternsIffNoPatternLines(root: string, text: string)
    ensures PathsFromConfiguration(root, text).patterns == []
            <==> forall i :: 0 <= i < |Split(text, '\n')| ==> !IsPatternLine(Strip(Split(text, '\n')[i]))
  {
    var lines := Split(text, '\n');
    var stripped := StrippedLines(lines);
    ConfigurationPatterns(root, text);
    assert |PathsFromConfiguration(root, text).patterns| == |Filter(IsPatternLine, stripped)|;
    FilterEmpty(IsPatternLine, stripped);
    assert forall i :: 0 <= i < |lines| ==> stripped[i] == Strip(lines[i]);
  }

  /** There are as many patterns as pattern lines. */
  lemma PatternCount(root: string, text: string)
    ensures |PathsFromConfiguration(root, text).patterns|
            == |Filter(IsPatternLine, StrippedLines(Split(text, '\n')))|
  {
    ConfigurationPatterns(root, text);
  }

  /** Some pattern matches `normalized`. */
  function AnyMatches(normalized: string, regexps: seq<string>, matches: Matcher): (r: bool)
    ensures r <==> exists i :: 0 <= i < |regexps| && matches(regexps[i], normalized)
    decreases |regexps|
  {
    if |regexps| == 0 then false
    else if matches(regexps[0], normalized) then true
    else
      var r := AnyMatches(normalized, regexps[1..], matches);
      assert forall i :: 1 <= i < |regexps| ==> regexps[i] == regexps[1..][i - 1];
      r
  }

  /** `path_matches_regexps`: after turning `\` into `/` in `path`, some
      pattern matches it. No pattern, no match. */
  function PathMatchesRegexps(path: string, regexps: seq<string>, matches: Matcher): (r: bool)
    ensures r <==> exists i :: 0 <= i < |regexps| && matches(regexps[i], ReplaceChar(path, '\\', '/'))
    ensures regexps == [] ==> !r
  {
    AnyMatches(ReplaceChar(path, '\\', '/'), regexps, matches)
  }

  /** The filter of `all_monitored_directories`: of the directories a walk
      of the project visits, those that some pattern matches, in walk order. */
  function MonitoredDirectories(walk: seq<string>, regexps: seq<string>, matches: Matcher): (r: seq<string>)
    ensures |r| <= |walk|
    ensures forall d :: d in r <==> d in walk && PathMatchesRegexps(d, regexps, matches)
    ensures Distinct(walk) ==> Distinct(r)
    ensures InOrderWithin(r, walk)
  {
    FilterInOrder(d => PathMatchesRegexps(d, regexps, matches), walk);
    Filter(d => PathMatchesRegexps(d, regexps, matches), walk)
  }

  /** The example in the documentation of `get_path_regexp`: the pattern
      is `/home/wilfred/gxbo/foo/{a,b}` anchored at both ends. */
  lemma PathRegexpExample()
    ensures PathRegexp("/home/wilfred/gxbo", "foo/{a,b}") == "^" + "/home/wilfred/gxbo/foo/{a,b}" + "$"
  {
    var joined := "/home/wilfred/gxbo/foo/{a,b}";
    ExampleJoin("/home/wilfred/gxbo", "foo/{a,b}", joined);
    ReplaceCharAbsent(joined, '\\', '/');
  }

  lemma ExampleJoin(root: string, relative: string, joined: string)
    requires root == "/home/wilfred/gxbo" && relative == "foo/{a,b}"
    requires joined == "/home/wilfred/gxbo/foo/{a,b}"
    ensures PathJoin(root, relative) == joined && '\\' !in joined
  {
    StartsWithChar(relative, '/');
    EndsWithChar(root, '/');
    assert root + "/" + relative == joined;
  }

  /** A line whose first character other than whitespace is `#` is a
      comment once stripped, and so yields no pattern. */
  lemma CommentLineIgnored(line: string, lead: nat)
    requires lead < |line| && AllSpace(line[..lead]) && line[lead] == '#'
    ensures !IsPatternLine(Strip(line))
  {
    var stripped := Strip(line);
    assert stripped[0] == '#';
    StartsWithChar(stripped, '#');
  }

  /** Two newline-free lines joined by a newline split back into the two. */
  lemma TwoLines(a: string, b: string)
    requires '\n' !in a && '\n' !in b
    ensures Split(a + "\n" + b, '\n') == [a, b]
  {
    SplitJoin([a, b], '\n');
    assert JoinWith([a, b], '\n') == a + "\n" + b;
  }

  /** The configuration test with comment lines only: no pattern. */
  lemma CommentsIgnored()
    ensures PathsFromConfiguration("/", "# foo \n# bar").patterns == []
  {
    CommentsOnly("# foo ", "# bar", 0, 0, "# foo \n# bar");
  }

  /** The configuration test with blank and comment lines: no pattern. */
  lemma BlankLinesIgnored()
    ensures PathsFromConfiguration("/", "# \n # ").patterns == []
  {
    CommentsOnly("# ", " # ", 0, 1, "# \n # ");
  }

  /** Two comment lines, the `#` of each after `leadA` and `leadB` blanks,
      yield no pattern. */
  lemma CommentsOnly(a: string, b: string, leadA: nat, leadB: nat, text: string)
    requires '\n' !in a && '\n' !in b && text == a + "\n" + b
    requires leadA < |a| && AllSpace(a[..leadA]) && a[leadA] == '#'
    requires leadB < |b| && AllSpace(b[..leadB]) && b[leadB] == '#'
    ensures PathsFromConfiguration("/", text).patterns == []
  {
    TwoLines(a, b);
    CommentLineIgnored(a, leadA);
    CommentLineIgnored(b, leadB);
    NoPatternsIffNoPatternLines("/", text);
  }

  /** The configuration test with three plain lines: three patterns. */
  lemma RegexpNumber()
    ensures |PathsFromConfiguration("/", "foo\nbar\nbaz").patterns| == 3
  {
    var lines := ["foo", "bar", "baz"];
    ThreeLinesSplit("foo\nbar\nbaz", lines);
    ThreeLinesPlain(lines);
    PatternCount("/", "foo\nbar\nbaz");
  }

  lemma ThreeLinesSplit(text: string, lines: seq<string>)
    requires lines == ["foo", "bar", "baz"]
    requires text == "foo\nbar\nbaz"
    ensures Split(text, '\n') == lines
  {
    SplitJoin(lines, '\n');
    assert JoinWith(lines, '\n') == text;
  }

  lemma ThreeLinesPlain(lines: seq<string>)
    requires lines == ["foo", "bar", "baz"]
    ensures Filter(IsPatternLine, StrippedLines(lines)) == lines
  {
    ThreeLinesStripped(lines);
    PlainPatternLines();
    FilterAll(IsPatternLine, lines);
  }

  lemma ThreeLinesStripped(lines: seq<string>)
    requires lines == ["foo", "bar", "baz"]
    ensures StrippedLines(lines) == lines
  {
    StripUnpadded(lines[0]);
    StripUnpadded(lines[1]);
    StripUnpadded(lines[2]);
  }

  lemma PlainPatternLines()
    ensures IsPatternLine("foo") && IsPatternLine("bar") && IsPatternLine("baz")
  {
    StartsWithChar("foo", '#');
    StartsWithChar("bar", '#');
    StartsWithChar("baz", '#');
    EndsWithChar("foo", '/');
    EndsWithChar("bar", '/');
    EndsWithChar("baz", '/');
  }
}

=== FILE: paths.dfy ===
/** POSIX path handling: `os.path.join` and the file-name half of
    `os.path.split`. */
module Paths {
  import opened Text

  /** `os.path.join(root, part)` on POSIX: an absolute `part` replaces `root`;
      otherwise `part` is appended, with a `/` in between unless `root` is
      empty or already ends with one. */
  function PathJoin(root: string, part: string): (r: string)
    ensures EndsWith(r, part)
    ensures StartsWith(part, "/") ==> r == part
    ensures !StartsWith(part, "/") ==> StartsWith(r, root)
    ensures !StartsWith(part, "/") && (root == "" || EndsWith(root, "/")) ==> |r| == |root| + |part|
    ensures !StartsWith(part, "/") && !(root == "" || EndsWith(root, "/")) ==>
              |r| == |root| + 1 + |part| && r[|root|] == '/'
  {
    if StartsWith(part, "/") then part
    else if root == "" || EndsWith(root, "/") then root + part
    else root + "/" + part
  }

  /** The last component of `path`: what follows its last `/`
      (`os.path.split(path)[1]`). */
  function Basename(path: string): string
    decreases |path|
  {
    if |path| == 0 || path[|path| - 1] == '/' then ""
    else Basename(path[..|path| - 1]) + [path[|path| - 1]]
  }

  /** The last component is the longest suffix of `path` that holds no `/`:
      a suffix without `/`, preceded by a `/` unless it is all of `path`. */
  lemma {:induction false} BasenameSpec(path: string)
    ensures EndsWith(path, Basename(path))
    ensures '/' !in Basename(path)
    ensures |Basename(path)| < |path| ==> path[|path| - |Basename(path)| - 1] == '/'
    decreases |path|
  {
    if |path| > 0 && path[|path| - 1] != '/' {
      var init := path[..|path| - 1];
      var last := path[|path| - 1];
      BasenameSpec(init);
      var b := Basename(init);
      assert Basename(path) == b + [last];
      assert path[|path| - |b| - 1..] == init[|init| - |b|..] + [last];
      assert '/' !in b + [last] by {
        assert forall c :: c in b + [last] ==> c in b || c == last;
      }
    }
  }

  /** A suffix without `/` is a suffix of the last component too. */
  lemma EndsWithBasename(path: string, suffix: string)
    requires '/' !in suffix
    ensures EndsWith(path, suffix) <==> EndsWith(Basename(path), suffix)
  {
    var b := Basename(path);
    BasenameSpec(path);
    if EndsWith(b, suffix) {
      assert path[|path| - |b|..] == b;
      assert path[|path| - |suffix|..] == b[|b| - |suffix|..];
    }
  }

  /** Joining a directory with a plain file name (no `/`, as a directory
      listing yields) produces a path whose last component is that name. */
  lemma {:induction false} BasenameOfJoin(dir: string, name: string)
    requires name != "" && '/' !in name
    ensures Basename(PathJoin(dir, name)) == name
  {
    var p := PathJoin(dir, name);
    BasenameOfSuffix(p, name);
  }

  /** If `path` ends with a `/` followed by `name`, or is `name` after a
      prefix ending in `/`, its last component is `name`. */
  lemma {:induction false} BasenameOfSuffix(path: string, name: string)
    requires '/' !in name && EndsWith(path, name)
    requires |path| == |name| || path[|path| - |name| - 1] == '/'
    ensures Basename(path) == name
    decreases |name|
  {
    if |name| == 0 {
    } else {
      var init := path[..|path| - 1];
      assert name[|name| - 1] == path[|path| - 1];
      assert name[|name| - 1] in name;
      var nameInit := name[..|name| - 1];
      assert init[|init| - |nameInit|..] == nameInit;
      BasenameOfSuffix(init, nameInit);
      assert name == nameInit + [path[|path| - 1]];
    }
  }

  /** A name without `/` is never an absolute path. */
  lemma NotAbsolute(name: string)
    requires '/' !in name
    ensures !StartsWith(name, "/")
  {
    if |name| > 0 {
      assert name[0] in name;
      assert name[..1][0] == name[0];
    }
  }

  /** For a fixed directory, different plain file names give different paths. */
  lemma JoinInjective(dir: string, a: string, b: string)
    requires '/' !in a && '/' !in b
    requires PathJoin(dir, a) == PathJoin(dir, b)
    ensures a == b
  {
    var prefix := if dir == "" || EndsWith(dir, "/") then dir else dir + "/";
    NotAbsolute(a);
    NotAbsolute(b);
    assert PathJoin(dir, a) == prefix + a;
    assert PathJoin(dir, b) == prefix + b;
    assert (prefix + a)[|prefix|..] == a;
    assert (prefix + b)[|prefix|..] == b;
  }
}

=== FILE: scenarios.dfy ===
/** End-to-end behaviour of the monitor, from configuration text to the
    error log: the unit tests of the configuration loader and matcher, and
    the life of a single source file across passes. */
module Scenarios {
  import opened Wrappers
  import opened Text
  import opened Paths
  import opened Sequences
  import opened PathMatcher
  import opened SourceFiles
  import opened Staleness
  import opened ErrorLedger
  import opened DirectoryPass

  /** A configuration of one line, already stripped and a pattern line,
      yields exactly that line's pattern. */
  lemma OneLineConfiguration(root: string, line: string)
    requires '\n' !in line && Strip(line) == line && IsPatternLine(line)
    ensures PathsFromConfiguration(root, line).patterns == [PathRegexp(root, line)]
  {
    assert Split(line, '\n') == [line];
    assert [line][1..] == [];
  }

  /** A relative pattern line under the root `/` becomes `^/line$` when it
      holds no backslash. */
  lemma PatternUnderRoot(line: string)
    requires !StartsWith(line, "/") && '\\' !in line
    ensures PathRegexp("/", line) == "^/" + line + "$"
  {
    EndsWithChar("/", '/');
    assert PathJoin("/", line) == "/" + line;
    ReplaceCharAbsent("/" + line, '\\', '/');
  }

  /** A plain pattern line: not blank, no surrounding whitespace, no `#`
      at the start, no `/` at either end, no newline and no backslash. */
  predicate PlainPatternLine(line: string) {
    && |line| > 0
    && !IsSpace(line[0]) && !IsSpace(line[|line| - 1])
    && line[0] != '#' && line[0] != '/' && line[|line| - 1] != '/'
    && '\n' !in line && '\\' !in line
  }

  /** The matching test with a simple pattern: configuration `foo` under
      `/` matches `/foo`, given that `^/foo$` matches it. */
  lemma SimpleRegexp(matches: Matcher)
    requires matches("^/foo$", "/foo")
    ensures PathMatchesRegexps("/foo", PathsFromConfiguration("/", "foo").patterns, matches)
  {
    TestLine("foo", "^/foo$", "/foo");
    OneLineMatchesPath("foo", "/foo", matches);
  }

  /** The matching test with a pattern holding a character class:
      configuration `abc/[^/]+/ghi` under `/` matches `/abc/def/ghi`, given
      that `^/abc/[^/]+/ghi$` matches it. */
  lemma ComplexRegexp(matches: Matcher)
    requires matches("^/abc/[^/]+/ghi$", "/abc/def/ghi")
    ensures PathMatchesRegexps("/abc/def/ghi", PathsFromConfiguration("/", "abc/[^/]+/ghi").patterns, matches)
  {
    TestLine("abc/[^/]+/ghi", "^/abc/[^/]+/ghi$", "/abc/def/ghi");
    OneLineMatchesPath("abc/[^/]+/ghi", "/abc/def/ghi", matches);
  }

  /** Under the root `/`, a configuration made of one plain line `line`
      matches any `path` (without backslashes) that the regular-expression
      engine matches against `^/line$`. */
  lemma OneLineMatchesPath(line: string, path: string, matches: Matcher)
    requires PlainPatternLine(line) && '\\' !in path
    requires matches("^/" + line + "$", path)
    ensures PathMatchesRegexps(path, PathsFromConfiguration("/", line).patterns, matches)
  {
    StripUnpadded(line);
    StartsWithChar(line, '#');
    StartsWithChar(line, '/');
    EndsWithChar(line, '/');
    OneLineConfiguration("/", line);
    PatternUnderRoot(line);
    ReplaceCharAbsent(path, '\\', '/');
  }

  /** The configuration lines, patterns and paths of the matching tests. */
  lemma TestLine(line: string, pattern: string, path: string)
    requires || (line == "foo" && pattern == "^/foo$" && path == "/foo")
             || (line == "abc/[^/]+/ghi" && pattern == "^/abc/[^/]+/ghi$" && path == "/abc/def/ghi")
    ensures PlainPatternLine(line) && "^/" + line + "$" == pattern && '\\' !in path
  {
    TestLinePlain(line);
    TestLineAnchored(line, pattern);
  }

  /** Both test lines are plain pattern lines. */
  lemma TestLinePlain(line: string)
    requires line == "foo" || line == "abc/[^/]+/ghi"
    ensures PlainPatternLine(line)
  {
  }

  /** Each test's pattern is its line anchored under `/`. */
  lemma TestLineAnchored(line: string, pattern: string)
    requires (line == "foo" && pattern == "^/foo$") || (line == "abc/[^/]+/ghi" && pattern == "^/abc/[^/]+/ghi$")
    ensures "^/" + line + "$" == pattern
  {
  }

  /** A file's visit in a one-file directory is that directory's
      whole pass. */
  lemma OneFilePass(path: string, mtimes: Mtimes, minifies: Minifier, now: int, ledger: Ledger)
    requires IsMinifiable(path) ==> path in mtimes
    ensures Pass([path], mtimes, minifies, [now], ledger) == Visit(path, mtimes, minifies, now, ledger)
  {
    assert [path][1..] == [] && [now][1..] == [];
    var v := Visit(path, mtimes, minifies, now, ledger);
    assert v.attempts + [] == v.attempts;
  }

  /** A new source (no artifact, no failure on record) is handed to the
      minifier on the first pass, and, with no edit in between, on no later
      pass. */
  lemma NewSourceMinifiedOnce(path: string, source: int, now: int, later: int, minifies: Minifier)
    requires IsMinifiable(path) && 0 <= source < now
    ensures var r := Pass([path], map[path := source], minifies, [now], map[]);
            && r.attempts == [Attempt(path, minifies(path), now)]
            && ArtifactTime(path, r.mtimes) == Some(now)
            && (minifies(path) <==> r.ledger == map[])
            && Pass([path], r.mtimes, minifies, [later], r.ledger).attempts == []
  {
    var mtimes := map[path := source];
    SourceAndArtifact(path, source, now);
    DueFileOutcome(path, mtimes, minifies, now, map[]);
    SecondPassIsIdle([path], mtimes, minifies, [now], [later], map[]);
  }

  /** The first end-to-end scenario: `/p/js/foo.js`, new at 100, is
      minified once by the pass at 200, and not again at 300. */
  lemma FooIsMinifiedOnce(minifies: Minifier)
    ensures var path := PathJoin("/p/js", "foo.js");
            var r := Pass([path], map[path := 100], minifies, [200], map[]);
            && r.attempts == [Attempt(path, minifies(path), 200)]
            && Pass([path], r.mtimes, minifies, [300], r.ledger).attempts == []
  {
    PlainSource("foo.js");
    MinifiableInAnyDirectory("/p/js", "foo.js");
    NewSourceMinifiedOnce(PathJoin("/p/js", "foo.js"), 100, 200, 300, minifies);
  }

  /** A directory listing of one name holds one path. */
  lemma OneListedName(dir: string, name: string)
    ensures ListedPaths(dir, [name]) == [PathJoin(dir, name)]
  {
  }

  /** A one-file pass over a due source records its outcome and stamps the
      source's artifact. */
  lemma DueFileOutcome(path: string, mtimes: Mtimes, minifies: Minifier, now: int, ledger: Ledger)
    requires Due(path, mtimes, ledger)
    ensures var r := Pass([path], mtimes, minifies, [now], ledger);
            && r.attempts == [Attempt(path, minifies(path), now)]
            && r.ledger == RecordOutcome(ledger, path, !minifies(path), now)
            && r.mtimes == StampArtifact(mtimes, path, now)
  {
    OneFilePass(path, mtimes, minifies, now, ledger);
  }

  /** A one-file pass over a source that is not due changes nothing. */
  lemma IdleFileOutcome(path: string, mtimes: Mtimes, minifies: Minifier, now: int, ledger: Ledger)
    requires IsMinifiable(path) ==> path in mtimes
    requires !Due(path, mtimes, ledger)
    ensures Pass([path], mtimes, minifies, [now], ledger) == PassResult(ledger, mtimes, [])
  {
    OneFilePass(path, mtimes, minifies, now, ledger);
  }

  /** Times of a source, and of its artifact once an attempt stamped it. */
  lemma SourceAndArtifact(path: string, source: int, stamp: int)
    requires IsMinifiable(path)
    ensures ArtifactTime(path, map[path := source]) == None
    ensures var m := StampArtifact(map[path := source], path, stamp);
            path in m && m[path] == source && ArtifactTime(path, m) == Some(stamp)
  {
    MinifiableHasMinifiedName(path);
    assert |MinifiedName(path).value| == |path| + 4;
  }

  /** Editing the source after its artifact was stamped. */
  lemma EditAfterStamp(path: string, source: int, stamp: int, edited: int)
    requires IsMinifiable(path)
    ensures StampArtifact(map[path := source], path, stamp)[path := edited]
            == StampArtifact(map[path := edited], path, stamp)
  {
    MinifiableHasMinifiedName(path);
    assert |MinifiedName(path).value| == |path| + 4;
  }

  /** First pass at 200 over a new source edited at 100: the minifier fails.
      The ledger records the failure, the output redirection has left an
      artifact stamped 200, and the error log names the source. */
  method FirstPassFails(projectPath: string, dir: string, name: string, failing: Minifier)
    returns (r: PassResult, disk: Disk)
    requires IsMinifiable(PathJoin(dir, name)) && !failing(PathJoin(dir, name))
    ensures r.ledger == map[PathJoin(dir, name) := 200]
    ensures r.mtimes == StampArtifact(map[PathJoin(dir, name) := 100], PathJoin(dir, name), 200)
    ensures Lookup(disk, ErrorLogPath(projectPath)) == Some([LogLine(PathJoin(dir, name))])
  {
    var path := PathJoin(dir, name);
    OneListedName(dir, name);
    NewSourceFails(path, failing);
    r, disk := MinifyAllInDirectory(projectPath, dir, [name], map[path := 100], failing, [200], map[], map[]);
    MirrorsSingleton(Lookup(disk, ErrorLogPath(projectPath)).value, path, 200);
  }

  /** The pass of `FirstPassFails`, on the file system and ledger alone. */
  lemma NewSourceFails(path: string, failing: Minifier)
    requires IsMinifiable(path) && !failing(path)
    ensures var r := Pass([path], map[path := 100], failing, [200], map[]);
            && |r.attempts| == 1
            && r.ledger == map[path := 200]
            && r.mtimes == StampArtifact(map[path := 100], path, 200)
  {
    SourceAndArtifact(path, 100, 200);
    DueFileOutcome(path, map[path := 100], failing, 200, map[]);
  }

  /** Second pass at 300 without an edit: the artifact and the recorded
      failure are both newer than the source, so nothing is attempted and
      nothing changes. */
  method UneditedFailureIsNotRetried(projectPath: string, dir: string, name: string, failing: Minifier,
                                     prior: PassResult, disk: Disk)
    returns (r: PassResult, disk': Disk)
    requires IsMinifiable(PathJoin(dir, name))
    requires prior.ledger == map[PathJoin(dir, name) := 200]
    requires prior.mtimes == StampArtifact(map[PathJoin(dir, name) := 100], PathJoin(dir, name), 200)
    ensures r == PassResult(prior.ledger, prior.mtimes, [])
    ensures disk' == disk
  {
    var path := PathJoin(dir, name);
    OneListedName(dir, name);
    SourceAndArtifact(path, 100, 200);
    IdleFileOutcome(path, prior.mtimes, failing, 300, prior.ledger);
    r, disk' := MinifyAllInDirectory(projectPath, dir, [name], prior.mtimes, failing, [300], prior.ledger, disk);
  }

  /** Third pass at 500, after the source was edited at 400: it is newer
      than both the artifact and the failure, the minifier now succeeds,
      the ledger empties and the error log is removed. */
  method EditedSourceIsFixed(projectPath: string, dir: string, name: string, fixed: Minifier,
                             ledger: Ledger, mtimes: Mtimes, disk: Disk)
    returns (r: PassResult, disk': Disk)
    requires IsMinifiable(PathJoin(dir, name)) && fixed(PathJoin(dir, name))
    requires ledger == map[PathJoin(dir, name) := 200]
    requires mtimes == StampArtifact(map[PathJoin(dir, name) := 400], PathJoin(dir, name), 200)
    ensures r.ledger == map[]
    ensures Lookup(disk', ErrorLogPath(projectPath)) == None
  {
    var path := PathJoin(dir, name);
    OneListedName(dir, name);
    SourceAndArtifact(path, 400, 200);
    DueFileOutcome(path, mtimes, fixed, 500, ledger);
    r, disk' := MinifyAllInDirectory(projectPath, dir, [name], mtimes, fixed, [500], ledger, disk);
  }

  /** The life of a source that fails to minify: the first pass fails and
      the error log names the file; a pass without an edit leaves the file
      and the log alone; after the file is edited, a pass with a minifier
      that now succeeds removes the error log. */
  method FailureIsLoggedThenCleared(projectPath: string, dir: string, name: string, failing: Minifier, fixed: Minifier)
    returns (log1: Option<seq<string>>, attempts2: seq<Attempt>, log2: Option<seq<string>>, log3: Option<seq<string>>)
    requires IsMinifiable(PathJoin(dir, name))
    requires !failing(PathJoin(dir, name)) && fixed(PathJoin(dir, name))
    ensures log1 == Some([PathJoin(dir, name) + "\n"])
    ensures attempts2 == [] && log2 == log1
    ensures log3 == None
  {
    var path := PathJoin(dir, name);
    var logPath := ErrorLogPath(projectPath);
    var r1, disk1 := FirstPassFails(projectPath, dir, name, failing);
    log1 := Lookup(disk1, logPath);
    var r2, disk2 := UneditedFailureIsNotRetried(projectPath, dir, name, failing, r1, disk1);
    attempts2 := r2.attempts;
    log2 := Lookup(disk2, logPath);
    EditAfterStamp(path, 100, 200, 400);
    var r3, disk3 := EditedSourceIsFixed(projectPath, dir, name, fixed, r2.ledger, r2.mtimes[path := 400], disk2);
    log3 := Lookup(disk3, logPath);
  }

  /** The second end-to-end scenario, for `/p/js/bad.js`: while the file
      fails, the error log holds exactly its path; once it is edited and
      minifies, the error log is gone. */
  method BadFileScenario(failing: Minifier, fixed: Minifier)
    returns (log1: Option<seq<string>>, log3: Option<seq<string>>)
    requires !failing(PathJoin("/p/js", "bad.js")) && fixed(PathJoin("/p/js", "bad.js"))
    ensures log1 == Some(["/p/js/bad.js\n"])
    ensures log3 == None
  {
    BadPath();
    MinifiableInAnyDirectory("/p/js", "bad.js");
    var attempts2, log2;
    log1, attempts2, log2, log3 := FailureIsLoggedThenCleared("/p", "/p/js", "bad.js", failing, fixed);
  }

  /** `bad.js` is a source, and its path in `/p/js` is `/p/js/bad.js`. */
  lemma BadPath()
    ensures IsMinifiable("bad.js")
    ensures PathJoin("/p/js", "bad.js") + "\n" == "/p/js/bad.js\n"
  {
    assert "bad.js"[3..] == ".js";
    ShortSourceName("bad.js", ".js");
    StartsWithChar("bad.js", '/');
    EndsWithChar("/p/js", '/');
  }
}

=== FILE: sequences.dfy ===
/** Order-preserving filtering of sequences. */
module Sequences {

  /** No element occurs twice. */
  predicate Distinct<T(==)>(s: seq<T>) {
    forall i, j :: 0 <= i < j < |s| ==> s[i] != s[j]
  }

  /** The elements of `s` that satisfy `keep`, in their original order
      (Python's `[x for x in s if keep(x)]`). */
  function Filter<T(==,!new)>(keep: T -> bool, s: seq<T>): (r: seq<T>)
    ensures |r| <= |s|
    ensures forall x :: x in r <==> x in s && keep(x)
    ensures Distinct(s) ==> Distinct(r)
    decreases |s|
  {
    if |s| == 0 then []
    else
      var rest := Filter(keep, s[1..]);
      assert forall x :: x in s <==> x == s[0] || x in s[1..];
      if keep(s[0]) then [s[0]] + rest else rest
  }

  /** Filtering nothing but rejected elements gives nothing, and conversely. */
  lemma FilterEmpty<T(!new)>(keep: T -> bool, s: seq<T>)
    ensures Filter(keep, s) == [] <==> forall i :: 0 <= i < |s| ==> !keep(s[i])
  {
    if Filter(keep, s) != [] {
      var x := Filter(keep, s)[0];
      assert x in Filter(keep, s);
    }
  }

  /** Filtering keeps a sequence whose every element is kept. */
  lemma FilterAll<T(!new)>(keep: T -> bool, s: seq<T>)
    requires forall i :: 0 <= i < |s| ==> keep(s[i])
    ensures Filter(keep, s) == s
  {
    if |s| > 0 {
      FilterAll(keep, s[1..]);
    }
  }

  /** Filtering a sequence with a first element: that element is kept or
      dropped, and the rest is filtered. */
  lemma FilterCons<T(!new)>(keep: T -> bool, x: T, s: seq<T>)
    ensures Filter(keep, [x] + s) == if keep(x) then [x] + Filter(keep, s) else Filter(keep, s)
  {
    assert ([x] + s)[1..] == s;
  }

  /** Two filters that agree on every element select the same elements. */
  lemma {:induction false} FilterCongruent<T(!new)>(f: T -> bool, g: T -> bool, s: seq<T>)
    requires forall i :: 0 <= i < |s| ==> f(s[i]) == g(s[i])
    ensures Filter(f, s) == Filter(g, s)
    decreases |s|
  {
    if |s| > 0 {
      FilterCongruent(f, g, s[1..]);
    }
  }

  /** `x` occurs in `s` before some occurrence of `y`. */
  ghost predicate Before<T>(s: seq<T>, x: T, y: T) {
    exists a, b :: 0 <= a < b < |s| && s[a] == x && s[b] == y
  }

  /** The elements of `r` occur in `s` in the same order: any two elements
      of `r` occur in that order in `s`. */
  ghost predicate InOrderWithin<T>(r: seq<T>, s: seq<T>) {
    forall i, j :: 0 <= i < j < |r| ==> Before(s, r[i], r[j])
  }

  /** What comes in order in the tail of `s` comes in order in `s`. */
  lemma BeforeInTail<T>(s: seq<T>, x: T, y: T)
    requires |s| > 0 && Before(s[1..], x, y)
    ensures Before(s, x, y)
  {
    var a, b :| 0 <= a < b < |s| - 1 && s[1..][a] == x && s[1..][b] == y;
    assert s[a + 1] == x && s[b + 1] == y;
  }

  /** Filtering keeps the order of the elements it keeps. */
  lemma {:induction false} FilterInOrder<T(!new)>(keep: T -> bool, s: seq<T>)
    ensures InOrderWithin(Filter(keep, s), s)
    decreases |s|
  {
    if |s| > 0 {
      FilterInOrder(keep, s[1..]);
      FilterCons(keep, s[0], s[1..]);
      assert s == [s[0]] + s[1..];
      InOrderCons(s, Filter(keep, s), Filter(keep, s[1..]), keep(s[0]));
    }
  }

  /** Elements of the tail of `s` in order, possibly preceded by `s[0]`,
      are in order within `s`. */
  lemma InOrderCons<T>(s: seq<T>, r: seq<T>, rest: seq<T>, kept: bool)
    requires |s| > 0 && InOrderWithin(rest, s[1..])
    requires forall x :: x in rest ==> x in s[1..]
    requires r == if kept then [s[0]] + rest else rest
    ensures InOrderWithin(r, s)
  {
    forall i, j | 0 <= i < j < |r|
      ensures Before(s, r[i], r[j])
    {
      if kept && i == 0 {
        assert r[j] == rest[j - 1] && rest[j - 1] in rest;
        var b :| 0 <= b < |s| - 1 && s[1..][b] == r[j];
        assert s[0] == r[i] && s[b + 1] == r[j];
      } else if kept {
        assert r[i] == rest[i - 1] && r[j] == rest[j - 1];
        BeforeInTail(s, r[i], r[j]);
      } else {
        BeforeInTail(s, r[i], r[j]);
      }
    }
  }
}

=== FILE: source_files.dfy ===
/** Which files are minification sources, and where their minified
    artifacts go. */
module SourceFiles {
  import opened Wrappers
  import opened Text
  import opened Paths

  /** `is_minifiable`: the last path component is not hidden (no leading
      `.`), is a `.js` or `.css` file, and is not already a `.min.js` or
      `.min.css` artifact. Only the hidden-file test needs the split: the
      extension tests give the same answer on the whole path, so every
      source has a minified name. */
  predicate IsMinifiable(path: string)
    ensures IsMinifiable(path) <==>
              && !StartsWith(Basename(path), ".")
              && (EndsWith(path, ".js") || EndsWith(path, ".css"))
              && !(EndsWith(path, ".min.js") || EndsWith(path, ".min.css"))
    ensures IsMinifiable(path) ==> MinifiedName(path).Some?
  {
    EndsWithBasename(path, ".js");
    EndsWithBasename(path, ".css");
    EndsWithBasename(path, ".min.js");
    EndsWithBasename(path, ".min.css");
    var name := Basename(path);
    && !StartsWith(name, ".")
    && (EndsWith(name, ".js") || EndsWith(name, ".css"))
    && !(EndsWith(name, ".min.js") || EndsWith(name, ".min.css"))
  }

  /** The extension `get_minified_name` recognises at the end of `path`,
      trying `.js` before `.css`; empty when there is none. */
  function Extension(path: string): (ext: string)
    ensures ext == ".js" || ext == ".css" || ext == ""
    ensures ext != "" <==> EndsWith(path, ".js") || EndsWith(path, ".css")
    ensures ext != "" ==> EndsWith(path, ext)
  {
    if EndsWith(path, ".js") then ".js"
    else if EndsWith(path, ".css") then ".css"
    else ""
  }

  /** `get_minified_name`: `.min` inserted before the final `.js` or `.css`
      of `path`, so that only the last suffix changes. For any other path the
      source raises (its result variable is never bound), which is `None`
      here. */
  function MinifiedName(path: string): (r: Option<string>)
    ensures r.Some? <==> EndsWith(path, ".js") || EndsWith(path, ".css")
    ensures r.Some? ==> |r.value| == |path| + 4
    ensures r.Some? ==> r.value[..|path| - |Extension(path)|] == path[..|path| - |Extension(path)|]
    ensures r.Some? ==> EndsWith(r.value, ".min" + Extension(path))
  {
    var ext := Extension(path);
    if ext == "" then None
    else
      var r := path[..|path| - |ext|] + ".min" + ext;
      assert r[|r| - |".min" + ext|..] == ".min" + ext;
      Some(r)
  }

  /** A minified artifact is never itself a minification source: its name
      ends with `.min.js` or `.min.css`. */
  lemma MinifiedNameNotMinifiable(path: string)
    requires MinifiedName(path).Some?
    ensures !IsMinifiable(MinifiedName(path).value)
  {
    var art := MinifiedName(path).value;
    if Extension(path) == ".js" {
      assert ".min" + Extension(path) == ".min.js";
      EndsWithBasename(art, ".min.js");
    } else {
      assert ".min" + Extension(path) == ".min.css";
      EndsWithBasename(art, ".min.css");
    }
  }

  /** Different sources have different artifacts. */
  lemma MinifiedNameInjective(p: string, q: string)
    requires MinifiedName(p).Some? && MinifiedName(p) == MinifiedName(q)
    ensures p == q
  {
    var a := MinifiedName(p).value;
    var ep, eq := Extension(p), Extension(q);
    assert a[|a| - |ep|..] == ep;
    assert a[|a| - |eq|..] == eq;
    assert p == p[..|p| - |ep|] + ep;
    assert q == q[..|q| - |eq|] + eq;
  }

  /** A minifiable path has a minified name: `is_minifiable` guards every
      call of `get_minified_name`. */
  lemma MinifiableHasMinifiedName(path: string)
    requires IsMinifiable(path)
    ensures MinifiedName(path).Some?
  {
    EndsWithBasename(path, ".js");
    EndsWithBasename(path, ".css");
  }

  /** The doctests of `is_minifiable`: plain `.js` and `.css` files are
      sources; `.min.js`, `.min.css` and other extensions are not. */
  lemma IsMinifiableExamples()
    ensures IsMinifiable("foo.js") && IsMinifiable("bar.css")
    ensures !IsMinifiable("a.min.js") && !IsMinifiable("b.min.css")
    ensures !IsMinifiable("bar.gz")
  {
    PlainSource("foo.js");
    PlainSource("bar.css");
    ArtifactNames("a.min.js");
    ArtifactNames("b.min.css");
    OtherExtension("bar.gz");
  }

  lemma ArtifactNames(name: string)
    requires name == "a.min.js" || name == "b.min.css"
    ensures !IsMinifiable(name)
  {
    BasenameOfSuffix(name, name);
    if name == "a.min.js" {
      assert name[1..] == ".min.js";
    } else {
      assert name[1..] == ".min.css";
    }
  }

  lemma OtherExtension(name: string)
    requires name == "bar.gz"
    ensures !IsMinifiable(name)
  {
    BasenameOfSuffix(name, name);
    assert name[3..] != ".js" by {
      assert name[3..][1] == 'g';
    }
    assert name[2..] != ".css" by {
      assert name[2..][1] == '.';
    }
  }

  /** A plain file name with no directory part, that is not hidden and ends
      with `.js` or `.css` but not a `.min` one, is minifiable. */
  lemma PlainSource(name: string)
    requires name == "foo.js" || name == "bar.css"
    ensures IsMinifiable(name)
  {
    if name == "bar.css" {
      assert name[3..] == ".css";
      ShortSourceName(name, ".css");
    } else {
      assert name[3..] == ".js";
      ShortSourceName(name, ".js");
    }
  }

  /** A name of at most seven characters without `/`, that is not hidden and
      ends with `.js` or `.css`, is minifiable: it is too short for a `.min`
      suffix other than the whole name `.min.js`, which is hidden. */
  lemma ShortSourceName(name: string, ext: string)
    requires 0 < |name| <= 7 && '/' !in name && name[0] != '.'
    requires (ext == ".js" || ext == ".css") && |ext| < |name| && name[|name| - |ext|..] == ext
    ensures IsMinifiable(name)
  {
    BasenameOfSuffix(name, name);
    StartsWithChar(name, '.');
    if |name| == 7 {
      assert name[|name| - 7..] == name;
    }
  }

  /** Whether a listed file is a source depends on its name alone, not on
      the directory it is listed in. */
  lemma MinifiableInAnyDirectory(dir: string, name: string)
    requires name != "" && '/' !in name
    ensures IsMinifiable(PathJoin(dir, name)) == IsMinifiable(name)
  {
    BasenameOfJoin(dir, name);
    BasenameOfSuffix(name, name);
  }

  /** Hidden files are never minifiable. */
  lemma HiddenNotMinifiable(dir: string, name: string)
    requires '/' !in name && StartsWith(name, ".")
    ensures !IsMinifiable(PathJoin(dir, name))
  {
    BasenameOfJoin(dir, name);
  }

  /** The doctest of `get_minified_name`: a directory literally named `.js`
      is left alone. */
  lemma MinifiedNameExample()
    ensures MinifiedName("/a/b/.js/c/foo.js") == Some("/a/b/.js/c/foo.min.js")
  {
    var path := "/a/b/.js/c/foo.js";
    assert path[|path| - 3..] == ".js";
    assert Extension(path) == ".js";
    assert path[..|path| - 3] == "/a/b/.js/c/foo";
    assert "/a/b/.js/c/foo" + ".min" + ".js" == "/a/b/.js/c/foo.min.js";
  }
}

=== FILE: staleness.dfy ===
/** The decision whether a source file must be minified again. */
module Staleness {
  import opened Wrappers

  /** Python's truth value of an optional timestamp: absent and `0` are
      both false. */
  predicate Truthy(t: Option<int>) {
    t.Some? && t.value != 0
  }

  /** The rule the documentation of `needs_minifying` states: skip the
      file when its artifact exists and is strictly newer than the source,
      or when it failed last time and has not changed since (its recorded
      failure is strictly newer than the source). */
  predicate DocumentedSkips(source: int, artifact: Option<int>, failure: Option<int>) {
    (artifact.Some? && artifact.value > source) || (failure.Some? && failure.value > source)
  }

  /** `needs_minifying`, given the source's modification time, the
      artifact's modification time (absent when there is no artifact) and the
      ledger's failure time for the source (absent when it has none). As in
      the code, an artifact time of `0` counts as no artifact, and a missing
      failure time reads as `-1`. For sources modified after the epoch
      (`source >= 0`) this is exactly the documented rule; comparisons are
      strict, so equal timestamps mean the file is stale. */
  function NeedsMinifying(source: int, artifact: Option<int>, failure: Option<int>): (r: bool)
    ensures source >= 0 ==> (r <==> !DocumentedSkips(source, artifact, failure))
    ensures Truthy(artifact) && artifact.value > source ==> !r
    ensures failure.Some? && failure.value > source ==> !r
  {
    if Truthy(artifact) && artifact.value > source then false
    else if failure.GetOr(-1) > source then false
    else true
  }

  /** An artifact newer than its source suppresses minification, and the
      answer does not change while the timestamps do not. */
  lemma UpToDateArtifactIsSkipped(source: int, artifact: int, failure: Option<int>)
    requires artifact > source && artifact != 0
    ensures !NeedsMinifying(source, Some(artifact), failure)
  {
  }

  /** Retry suppression: after a failure recorded at `failed`, the source is
      not retried while it is older than the failure, and is retried once it
      is modified after it (unless an artifact newer than the source exists). */
  lemma RetrySuppression(source: int, artifact: Option<int>, failed: int)
    ensures failed > source ==> !NeedsMinifying(source, artifact, Some(failed))
    ensures (source >= failed && !(Truthy(artifact) && artifact.value > source))
            ==> NeedsMinifying(source, artifact, Some(failed))
  {
  }

  /** Ties go to "stale": a source whose artifact or failure carries the
      very same timestamp is minified again. */
  lemma EqualTimesAreStale(t: int)
    requires t >= -1
    ensures NeedsMinifying(t, Some(t), None)
    ensures NeedsMinifying(t, None, Some(t))
  {
  }

  /** Where the code departs from its documented rule: a source older than the
      sentinel `-1`, with no artifact and no failure on record, is never
      minified; and an artifact stamped `0` is ignored. */
  lemma PreEpochQuirks()
    ensures !NeedsMinifying(-5, None, None) && !DocumentedSkips(-5, None, None)
    ensures NeedsMinifying(-5, Some(0), Some(-10)) && DocumentedSkips(-5, Some(0), Some(-10))
  {
  }
}

=== FILE: text.dfy ===
/** The string operations the monitor uses, with Python's `str` semantics. */
module Text {

  predicate StartsWith(s: string, prefix: string) {
    |prefix| <= |s| && s[..|prefix|] == prefix
  }

  predicate EndsWith(s: string, suffix: string) {
    |suffix| <= |s| && s[|s| - |suffix|..] == suffix
  }

  /** Starting with a one-character string is having that first character. */
  lemma StartsWithChar(s: string, c: char)
    ensures StartsWith(s, [c]) <==> |s| > 0 && s[0] == c
  {
    if |s| > 0 && s[0] == c {
      assert s[..1] == [c];
    }
  }

  /** Ending with a one-character string is having that last character. */
  lemma EndsWithChar(s: string, c: char)
    ensures EndsWith(s, [c]) <==> |s| > 0 && s[|s| - 1] == c
  {
    if |s| > 0 && s[|s| - 1] == c {
      assert s[|s| - 1..] == [c];
    }
  }

  /** The characters Python 2's `str.strip()` removes: space, tab, newline,
      vertical tab, form feed and carriage return. */
  predicate IsSpace(c: char) {
    c == ' ' || c == '\t' || c == '\n' || c == '\r' || c == 11 as char || c == 12 as char
  }

  predicate AllSpace(s: string) {
    forall i :: 0 <= i < |s| ==> IsSpace(s[i])
  }

  /** The length of the run of whitespace that starts `s`. */
  function LeadingSpace(s: string): (n: nat)
    ensures n <= |s|
    ensures AllSpace(s[..n])
    ensures n < |s| ==> !IsSpace(s[n])
    decreases |s|
  {
    if |s| > 0 && IsSpace(s[0]) then 1 + LeadingSpace(s[1..]) else 0
  }

  /** The length of the run of whitespace that ends `s`. */
  function TrailingSpace(s: string): (n: nat)
    ensures n <= |s|
    ensures AllSpace(s[|s| - n..])
    ensures n < |s| ==> !IsSpace(s[|s| - 1 - n])
    decreases |s|
  {
    if |s| > 0 && IsSpace(s[|s| - 1]) then 1 + TrailingSpace(s[..|s| - 1]) else 0
  }

  /** `s` with the whitespace at both ends removed (`str.strip()`). */
  function Strip(s: string): string
  {
    var lead := LeadingSpace(s);
    if lead == |s| then []
    else
      var trail := TrailingSpace(s);
      assert trail <= |s| - 1 - lead;
      s[lead..|s| - trail]
  }

  /** A string that neither starts nor ends with whitespace strips to itself. */
  lemma StripUnpadded(s: string)
    requires |s| > 0 && !IsSpace(s[0]) && !IsSpace(s[|s| - 1])
    ensures Strip(s) == s
  {
  }

  /** What stripping leaves: a slice of `s` that neither starts nor ends
      with whitespace, with only whitespace outside it. */
  lemma StripSpec(s: string)
    ensures |Strip(s)| > 0 ==> !IsSpace(Strip(s)[0]) && !IsSpace(Strip(s)[|Strip(s)| - 1])
    ensures exists lead :: 0 <= lead <= |s| - |Strip(s)| && s[lead..lead + |Strip(s)|] == Strip(s)
                           && AllSpace(s[..lead]) && AllSpace(s[lead + |Strip(s)|..])
  {
    var lead := LeadingSpace(s);
    if lead == |s| {
      assert s[lead..lead] == [] && s[lead..] == [];
    } else {
      var trail := TrailingSpace(s);
      assert s[lead..lead + |Strip(s)|] == Strip(s);
    }
  }

  /** Every character of `s`, with `from` replaced by `to` (`str.replace`
      with single-character arguments). */
  function ReplaceChar(s: string, from: char, to: char): (r: string)
    ensures |r| == |s|
    ensures from != to ==> from !in r
    ensures forall i :: 0 <= i < |s| && s[i] != from ==> r[i] == s[i]
    ensures forall i :: 0 <= i < |s| && s[i] == from ==> r[i] == to
  {
    seq(|s|, i requires 0 <= i < |s| => if s[i] == from then to else s[i])
  }

  /** Replacing a character that does not occur changes nothing. */
  lemma ReplaceCharAbsent(s: string, from: char, to: char)
    requires from !in s
    ensures ReplaceChar(s, from, to) == s
  {
  }

  /** The position of the first `c` in `s`. */
  function FirstIndex(s: string, c: char): (i: nat)
    requires c in s
    ensures i < |s| && s[i] == c && c !in s[..i]
  {
    if s[0] == c then 0 else 1 + FirstIndex(s[1..], c)
  }

  /** The pieces of `parts` glued back together with `sep` between them. */
  function JoinWith(parts: seq<string>, sep: char): string
  {
    if |parts| == 0 then ""
    else if |parts| == 1 then parts[0]
    else parts[0] + [sep] + JoinWith(parts[1..], sep)
  }

  /** `s.split(sep)`: the maximal `sep`-free pieces of `s`, in order. There is
      always at least one piece (the empty string splits into `[""]`), and
      joining them with `sep` gives back `s`. */
  function Split(s: string, sep: char): (parts: seq<string>)
    ensures |parts| >= 1
    ensures forall i :: 0 <= i < |parts| ==> sep !in parts[i]
    ensures JoinWith(parts, sep) == s
    decreases |s|
  {
    if sep !in s then [s]
    else
      var i := FirstIndex(s, sep);
      var rest := Split(s[i + 1..], sep);
      assert s == s[..i] + [sep] + s[i + 1..];
      [s[..i]] + rest
  }

  /** Splitting is the inverse of joining: a non-empty sequence of `sep`-free
      pieces joined with `sep` splits back into the same pieces. */
  lemma {:induction false} SplitJoin(parts: seq<string>, sep: char)
    requires |parts| >= 1
    requires forall i :: 0 <= i < |parts| ==> sep !in parts[i]
    ensures Split(JoinWith(parts, sep), sep) == parts
    decreases |parts|
  {
    if |parts| == 1 {
      assert sep !in JoinWith(parts, sep);
    } else {
      var s := JoinWith(parts, sep);
      var tail := JoinWith(parts[1..], sep);
      assert s == parts[0] + [sep] + tail;
      assert s[|parts[0]|] == sep;
      assert s[..|parts[0]|] == parts[0];
      var i := FirstIndex(s, sep);
      assert i == |parts[0]|;
      assert s[i + 1..] == tail;
      SplitJoin(parts[1..], sep);
    }
  }
}

=== FILE: wrappers.dfy ===
/** Optional values, and the map lookup that produces them. */
module Wrappers {

  /** A value that may be absent (Python's `None`). */
  datatype Option<+T> = None | Some(value: T) {

    /** The wrapped value, or `default` when absent (Python's `dict.get(k, default)`). */
    function GetOr(default: T): T {
      match this
      case Some(v) => v
      case None => default
    }
  }

  /** The value stored under `k`, if any. */
  function Lookup<K, V>(m: map<K, V>, k: K): (r: Option<V>)
    ensures r.Some? <==> k in m
    ensures r.Some? ==> r.value == m[k]
  {
    if k in m then Some(m[k]) else None
  }
}
